=== FILE: README.md ===
# Smart-lock server: a verified model of the hub and its routes

This project models the core of a smart-lock server in Dafny. The server's real-time
hub connects browser dashboards and door controllers over web sockets. It keeps the
configured device's lock state, an access log and a table of pending fingerprint
enrollments. The HTTP routes around the hub register, log in and delete users, read
and update the device, summarise the access log, and authenticate requests.

The hub is one state machine (`Hub.Step`). A state holds:
- the connection registry: sessions in connection order, each with a client type fixed
  at connect time and an open flag;
- the hardware flag;
- the pending-enrollment table, from fingerprint slot to waiting request;
- the device collection, the users and the access log.

Each event is an atomic step to a new state and an ordered list of effects. The events
are a connection, a socket starting to close, a close, a parsed socket message, and the
`/enroll`, `/door-control` and `/user/register` requests. The effects are texts sent to
sessions, replies to waiting HTTP requests, and access-log entries appended.

The smaller routes are pure functions over the stored records:
- `UserRoutes`: register, login, change-password and delete;
- `DeviceRoutes`: get and partial update of the device;
- `Dashboard`: the summary and its success rate;
- `Auth`: the authentication middleware.

The storage schema rules are in `Models`: required fields, enumerations, defaults and
the unique device id. Password hashing, token verification and generated record ids
are parameters: `verify` predicates and `newId`.

Where the code and its comments or evident design differ, the model follows the code:
- Closing any controller session clears the hardware flag, even while another
  controller stays connected (`HubProperties.HardwareFlagClearedByAnyClose`).
- A `locked` report writes the lock state but appends no log entry
  (`HubProperties.LockedLogsNothing`).
- The dashboard summary returns every log entry, newest first, not only the five most
  recent that the comment at `src/routes/dashboard.routes.ts:20` announces.
- `PUT /device` (`src/routes/device.routes.ts:57-61`) writes the lock state directly, without notifying any dashboard or controller, although the hub's lock-state events are evidently meant to be its only writers. `DeviceRoutes.PutDevice` models that write as it stands; the hub invariants speak only of hub steps.
- The dashboard and authentication routers are not mounted in
  `src/routes/index.ts`. They are modelled as written.

## Model

| member | source | states |
|---|---|---|
| Registry.Classify | src/server.ts:44-45 | a connection is a dashboard exactly when its `clientType` parameter is `hardware-web`; anything else, including no parameter, is a controller |
| Registry.Register | src/server.ts:51 | admitting a connection appends exactly one open entry and keeps the earlier ones in order |
| Registry.Lookup | src/server.ts:139 | finds a session exactly when one with the id is registered, and returns that session |
| Registry.LookupUnique | src/server.ts:139 | with distinct ids, the lookup of a registered session's id returns that very session |
| Registry.Unregister | src/server.ts:143 | closing removes the session and keeps every other one; an unknown id changes nothing |
| Registry.UnregisterRemovesOne | src/server.ts:143 | with distinct ids, closing a registered session shrinks the registry by exactly one and keeps the ids distinct |
| Registry.MarkClosing | src/server.ts:156 | a closing socket stays registered with its type but no longer counts as open |
| Registry.FirstOpen | src/server.ts:154-161 | the first-match recipient is the earliest open session of the type; there is none exactly when no open session of the type exists |
| Registry.FirstOpenAfterUnregisterNone | src/server.ts:138-161 | after a close, nobody of a type is reachable exactly when no other open session of that type was registered |
| Registry.FirstOpenAfterUnregister | src/server.ts:138-161 | after a close, a first-match send reaches the earliest remaining open session of the type; the closed one is skipped |
| Registry.OpenIds | src/server.ts:177-182 | the broadcast recipients are exactly the open sessions of either type, each once |
| Pending.Await | src/server.ts:184 | storing a waiter under a slot replaces, and returns, any waiter already there; other slots are untouched |
| Pending.Resolve | src/server.ts:65-69 | an acknowledgement takes the slot's waiter out of the table; an unknown slot leaves the table unchanged |
| Pending.ResolveAtMostOnce | src/server.ts:64-70 | a second acknowledgement for the same slot finds no waiter and changes nothing |
| Pending.AwaitThenResolve | src/server.ts:184 | the acknowledgement for a slot hands back the waiter stored last under it |
| Pending.ResolveIsolated | src/server.ts:68 | resolving one slot never disturbs the waiter of another slot |
| Hub.SendFirst | src/server.ts:154-161 | a first-match send is at most one text, to the first open session of the type, and nothing when there is none |
| Hub.Broadcast | src/server.ts:177-182 | a broadcast sends the text to every open session of either type, each once, and to no one else |
| Hub.SetLock | src/server.ts:73-83 | a lock-state write changes only the configured device's lock state, creates no record, and writes nothing when the record is missing |
| Hub.HardwareStatusText | src/server.ts:61 | the status text is the `hardwareStatus` JSON object, and the flag reads back from the letter after its prefix: `t` exactly when hardware is active |
| Hub.ScanCommand | src/server.ts:180 | `scan:` followed by the slot in decimal, which reads back to the same integer, or by `undefined` for a user without a slot |
| Hub.AddUserCommand | src/routes/user.routes.ts:63 | `addUser:`, then the slot in decimal with no colon inside and reading back to the same integer, then a colon, then the pin as the last field |
| Hub.OnConnect | src/server.ts:44-51 | nothing is sent; the registry keeps every earlier session in order and gains one open session of the classified type, under an id no registered session carries in a consistent hub; the flag ends set exactly when it was set or the client is not a dashboard; storage is untouched |
| Hub.OnClosing | src/server.ts:156 | nothing is sent; the same ids stay registered and controllers remain, but the closing session is no longer open, while every other session's openness is unchanged; nothing else changes |
| Hub.OnClose | src/server.ts:138-143 | nothing is sent; the id is no longer registered and every other open session stays reachable; a registered controller closing clears the flag and any other close keeps it; storage is untouched |
| Hub.OnCheckHardwareStatus | src/server.ts:60-62 | the state is unchanged; at most one text is sent, exactly when the asking session is registered and open, and it is the current flag sent to the asker |
| Hub.OnEnrollAck | src/server.ts:64-70 | the slot's waiter is removed and answered at most once, and only that request: 500 on failure; on success the user is marked enrolled and answered 200; no reply if the user is gone; an unknown slot does nothing |
| Hub.UnlockActor | src/server.ts:87-101 | an unlock is attributed to the fixed mobile account for the mobile source; otherwise to a user enrolled under the reported slot, and to no one without a non-zero slot |
| Hub.EventEntry | src/server.ts:93-101 | a reported event is logged once, exactly when it names a non-empty source |
| Hub.OnUnlocked | src/server.ts:72-102 | only the configured device's lock state changes, to unlocked; the only text is `unlocked`, first, to the first open dashboard, and to it whenever there is one; no reply; the log grows by exactly the appended entries: one successful `door unlocked` entry for the attributed actor when the source is non-empty, none otherwise |
| Hub.OnLocked | src/server.ts:103-118 | only the configured device's lock state changes, to locked; the effects are texts only, `locked` to the first open dashboard whenever there is one; the log is unchanged |
| Hub.OnFailed | src/server.ts:120-127 | everything but the log is unchanged; the effects are appends only, and the log grows by exactly them: one unsuccessful anonymous `failed attempt` entry when the source is non-empty, none otherwise |
| Hub.OnMessage | src/server.ts:55-136 | a message from a socket that is no longer registered changes nothing; texts go to open sessions only |
| Hub.EnrollTarget | src/server.ts:170-173 | the enrollment target is the stored user whose id is the given string, when there is one |
| Hub.OnEnroll | src/server.ts:164-200 | 400 without a user id and 404 for an unknown user, changing nothing; otherwise the request waits under the user's slot, displacing only that slot's waiter, the effects are exactly `scan:<slot>` to every open session, and nothing else changes |
| Hub.DoorCommand | src/server.ts:217-233 | the route acts on exactly the actions `unlock` and `lock` |
| Hub.OnDoorControl | src/server.ts:202-253 | the request is answered exactly once, last, after texts to open sessions only; 400 without an action, 404 without the device and 400 `Invalid action` for any other action, each changing nothing; `unlock` and `lock` write only the configured device's lock state, send the command to every open session and to no one else, and answer 200; only the devices ever change |
| Hub.OnRegister | src/routes/user.routes.ts:47-73 | as intended: a refused registration changes nothing and answers its error once; an accepted one appends the user in a slot no stored user holds, sends `addUser:<slot>:<pin>` to every open session and to no one else, then answers 201 |
| Hub.OnRegisterAsWritten | src/routes/user.routes.ts:47-77 | as written: an accepted registration stores the user, but its only effect is the answer 500 `Something went wrong`, and nothing is sent |
| Hub.RegisterAsWrittenStoresButFails | src/routes/user.routes.ts:47-77 | while slot count + 1 is free, both handlers store the same user, but as written the client gets 500 where the intended handler answers 201 |
| Hub.Step | src/server.ts:40-253 | in every step, texts go only to open sessions, and replies answer only the step's own request or the request waiting on an acknowledged slot |
| HubProperties.InitValid | src/server.ts:31-36 | the hub as the server starts it, with no sessions, the flag clear and nothing pending, is consistent over any consistent stored records |
| HubProperties.StepPreservesValid | src/server.ts:40-152 | every step keeps the hub consistent: distinct session ids below the counter, devices keyed by id, distinct user ids and slots, and a hardware flag set only while a controller is registered |
| HubProperties.ConnectPreservesValid | src/server.ts:44-51 | a connection keeps the hub consistent |
| HubProperties.ClosePreservesValid | src/server.ts:138-143 | a close keeps the hub consistent; in particular the flag stays set only while a controller remains |
| HubProperties.ClosingPreservesValid | src/server.ts:156 | a socket starting to close keeps the hub consistent |
| HubProperties.EnrolledKeepsUsersValid | src/server.ts:187 | marking a user enrolled keeps user ids and slots distinct |
| HubProperties.MessagePreservesValid | src/server.ts:55-136 | every socket message keeps the hub consistent |
| HubProperties.RegisterPreservesValid | src/routes/user.routes.ts:47-53 | a registration keeps user ids and slots distinct |
| HubProperties.UnlockedLogsOneSuccess | src/server.ts:72-102 | an unlock report appends exactly one successful entry with the reported source as access method, or none when the source is missing |
| HubProperties.FailedLogsOneFailure | src/server.ts:120-127 | a failure report appends one unsuccessful, anonymous entry when it names a non-empty source, none otherwise, and never changes the device |
| HubProperties.LockedLogsNothing | src/server.ts:103-118 | a lock report appends nothing to the access log |
| HubProperties.MessageAppendsToLog | src/server.ts:59-132 | among socket messages, only unlock and failure reports from registered sockets append to the log |
| HubProperties.StepAppendsToLog | src/server.ts:93-125 | the access log only grows, by exactly the appended effects, and only through unlock and failure reports |
| HubProperties.OnlyLockEventsWriteDevices | src/server.ts:72-247 | among hub steps, only unlock and lock reports and door control write the device collection; they never create or remove a record and change only the configured device's lock state |
| HubProperties.OnlyConnectionEventsChangeSessions | src/server.ts:40-152 | messages and HTTP requests never change the registry or the hardware flag |
| HubProperties.UnknownActionChangesNothing | src/server.ts:130-132 | a socket message with any other action changes no part of the hub and sends nothing |
| HubProperties.AckAnsweredOnce | src/server.ts:64-70 | a repeated acknowledgement for the same slot, with either outcome, does nothing |
| HubProperties.EnrollThenAck | src/server.ts:184-195 | after `/enroll`, the acknowledgement for the user's slot answers that request once (200 and enrolled, or 500) and frees the slot |
| HubProperties.EnrollSupersedes | src/server.ts:184 | a second `/enroll` on the same slot replaces the first waiting request |
| HubProperties.UnlockedReachesFirstDashboard | src/server.ts:86 | an unlock report reaches only the first open dashboard, and nobody when no dashboard is open |
| HubProperties.DoorCommandReachesEveryone | src/server.ts:218-242 | a door command from the route reaches every open session, controllers and dashboards alike |
| HubProperties.HardwareFlagClearedByAnyClose | src/server.ts:138-143 | with two controllers connected, closing one clears the flag while the other remains, and a dashboard asking is then told there is no hardware |
| Models.ParseLockState | src/models/device-status.model.ts:16-20 | a lock state is accepted exactly when it is `locked` or `unlocked` |
| Models.LockStateNameRoundTrip | src/models/device-status.model.ts:17-18 | every lock state's name parses back to it |
| Models.NewDevice | src/models/device-status.model.ts:13-28 | a new device needs a non-empty id and a lock state from the enumeration; it defaults to locked, battery 100 and Wi-Fi on |
| Models.InsertDevice | src/models/device-status.model.ts:13-14 | inserting a device fails with a duplicate key exactly when its id is taken; otherwise it adds one record and keeps the others |
| Models.InsertKeepsDeviceIdsUnique | src/models/device-status.model.ts:13-14 | after an accepted insert no two records share a device id |
| Models.FindUserIndex | src/server.ts:170 | finds the user with the id exactly when one exists |
| Models.FindByBiometric | src/server.ts:88-92 | finds a user enrolled under the slot exactly when one exists |
| Models.NewAccessLog | src/models/access-log.model.ts:20-30 | an entry needs a non-empty access method; success defaults to false; user and action are optional and kept as given |
| UserRoutes.AsString | src/routes/user.routes.ts:24-28 | a body field passes the string schema exactly when it is a JSON string |
| UserRoutes.EmailMatchesIsLowerEquality | src/routes/user.routes.ts:39-41 | the email test holds exactly when the lower-cased stored address equals the lower-cased trimmed input |
| UserRoutes.EmailMatchesIgnoresPadding | src/routes/user.routes.ts:39-41 | the email test ignores white space around the input |
| UserRoutes.TrimPadded | src/routes/user.routes.ts:40 | trimming removes any white space put around a trimmed string |
| UserRoutes.MaxSlot | src/routes/user.routes.ts:52 | bounds every slot in use |
| UserRoutes.NextSlot | src/routes/user.routes.ts:52 | the corrected slot is positive and held by no stored user, and it is the count plus one whenever that slot is free |
| UserRoutes.RegisterWith | src/routes/user.routes.ts:30-79 | registration answers 400 for a non-string field and 409 when an address matches ignoring case and padding; otherwise it appends a lecturer without password, not enrolled, with the email as given |
| UserRoutes.RegisterAsWritten | src/routes/user.routes.ts:52 | the written handler gives the new user slot count + 1 |
| UserRoutes.Register | src/routes/user.routes.ts:47-53 | the corrected registration gives a slot no stored user holds, so slots stay distinct |
| UserRoutes.RegisterAgreesWhileCountSlotFree | src/routes/user.routes.ts:52 | while no stored user holds slot count + 1, the corrected registration is exactly the written one |
| UserRoutes.AsWrittenSlotCollides | src/routes/user.routes.ts:52 | users in slots 1 and 2, the first deleted: the written handler gives the next user slot 2 again |
| UserRoutes.SlotNeverReused | src/routes/user.routes.ts:52 | with the corrected slot, slots stay distinct across any deletion and registration |
| UserRoutes.RemovalKeepsSlotsUnique | src/routes/user.routes.ts:136 | deleting a user keeps the remaining slots distinct |
| UserRoutes.Login | src/routes/user.routes.ts:87-109 | 400 for a non-string field; 404 exactly when no admin matches email and device id ignoring case and padding; otherwise the first matching admin in storage order is the one checked: the answer is that admin exactly when its password verifies, and 401 otherwise |
| UserRoutes.ChangePassword | src/routes/user.routes.ts:151-178 | 404 exactly when there is no admin; otherwise, for the first admin in storage order, in this order: 401 exactly when the current password fails for it, 400 when the new password is the same, 400 when it is shorter than 6, and success exactly when all three checks pass, replacing that admin's password and nothing else |
| UserRoutes.ChangePasswordKeepsUsersValid | src/routes/user.routes.ts:177-178 | a password change keeps every user's id and slot in place, so both stay distinct |
| UserRoutes.LoginAfterChangePassword | src/routes/user.routes.ts:151-178 | after a change, the first admin logs in with its own address and device id and the new password, when that password verifies |
| UserRoutes.FirstAdminLogsIn | src/routes/user.routes.ts:87-109 | the first admin, with no white space around its address and device id, logs in with them and a verifying password |
| UserRoutes.DeleteUser | src/routes/user.routes.ts:131-140 | 404 exactly when no user has the id; otherwise that user is removed and the others keep their order |
| EmailRegex.Compile | src/routes/user.routes.ts:40 | input without regular-expression syntax compiles to a pattern of its literal characters |
| EmailRegex.EmailMatchesAsWritten | src/routes/user.routes.ts:39-41 | the written test pastes the trimmed input unescaped into an anchored, case-insensitive regular expression |
| EmailRegex.LiteralPatternIsEquality | src/routes/user.routes.ts:40 | a literal pattern matches exactly the strings equal to it ignoring case |
| EmailRegex.AsWrittenAgreesOnPlainInput | src/routes/user.routes.ts:39-41 | on input without regular-expression syntax, the written test is the corrected one |
| EmailRegex.PlusAddressMissesItself | src/routes/user.routes.ts:96-100 | the address `a+b` does not match itself under the written test |
| EmailRegex.DotAddressMatchesOthers | src/routes/user.routes.ts:39-45 | the input `a.b` matches the different stored address `axb` under the written test |
| DeviceRoutes.ValidateUpdate | src/routes/device.routes.ts:30-34 | a body is accepted exactly when each present field has the schema's type and range (lock state from the enumeration, battery 0 to 100, Boolean Wi-Fi); otherwise 400 |
| DeviceRoutes.ValidateEncode | src/routes/device.routes.ts:30-34 | every typed update with its battery in range is accepted back from its body unchanged |
| DeviceRoutes.Apply | src/routes/device.routes.ts:45-48 | present fields replace the stored ones; absent fields and the device id keep their values |
| DeviceRoutes.ApplyEmpty | src/routes/device.routes.ts:51-55 | an update naming no field would write nothing |
| DeviceRoutes.ApplyIdempotent | src/routes/device.routes.ts:57-61 | writing the same update twice equals writing it once |
| DeviceRoutes.ApplyKeepsBatteryInRange | src/routes/device.routes.ts:32 | an accepted update keeps the battery level within 0 to 100 |
| DeviceRoutes.GetDevice | src/routes/device.routes.ts:9-27 | answers the configured device, or 404 exactly when it is missing |
| DeviceRoutes.PutDevice | src/routes/device.routes.ts:36-76 | 400 for a refused body, then 400 for an empty update, then 404 when the device is missing with nothing created; otherwise only that device changes, by the partial write |
| DeviceRoutes.PutIdempotent | src/routes/device.routes.ts:57-61 | repeating an accepted update answers the same document and leaves the collection unchanged |
| Dashboard.CountSuccessful | src/routes/dashboard.routes.ts:30-32 | the count is the number of indices of successful entries: at most all of them, none exactly when none succeeded, all exactly when all did |
| Dashboard.SuccessRate | src/routes/dashboard.routes.ts:33-36 | with accesses, the rate is the success percentage rounded to the nearest integer, upwards at a tie; with none it is 0 |
| Dashboard.SuccessRateBounds | src/routes/dashboard.routes.ts:33-36 | the rate lies in 0 to 100, is 100 when every access succeeded and 0 when none did |
| Dashboard.SuccessRateMonotonic | src/routes/dashboard.routes.ts:33-36 | more successes never lower the rate |
| Dashboard.NewestFirst | src/routes/dashboard.routes.ts:21-23 | the recent logs are all entries in reverse order of creation |
| Dashboard.NewestFirstInvolutive | src/routes/dashboard.routes.ts:21-23 | reversing the newest-first listing gives back the log in creation order: nothing is lost or reordered |
| Dashboard.GetSummary | src/routes/dashboard.routes.ts:10-52 | 404 exactly when the device is missing; otherwise the device, all entries newest first, the user and access counts, and the rate of the successful entries among all, in 0 to 100, rounded half up, and 0 for an empty log |
| Auth.BearerToken | src/middlewares/authenticate.middleware.ts:19 | the token is the second space-separated piece of the header and contains no space |
| Auth.NoSpaceNoToken | src/middlewares/authenticate.middleware.ts:19-23 | a header without a space carries no token |
| Auth.Authenticate | src/middlewares/authenticate.middleware.ts:12-41 | 401 `Unauthorized` without a header or token, 401 `Invalid token` when verification fails, 404 when no user has the token's id; a token that verifies to a stored user's id always proceeds, with that user |
| Auth.BearerAuthenticates | src/middlewares/authenticate.middleware.ts:12-37 | `Bearer <token>`, where the token verifies to the id of a stored user, proceeds with exactly that user |
| Auth.BearerTokenOfHeader | src/middlewares/authenticate.middleware.ts:19 | a header `<scheme> <token>`, with or without further pieces, carries exactly that token |
| Auth.SchemeIgnored | src/middlewares/authenticate.middleware.ts:19-23 | any scheme word authenticates exactly as `Bearer` does |
| Auth.DoubleSpaceUnauthorized | src/middlewares/authenticate.middleware.ts:19-23 | two spaces after the scheme leave an empty token, and the answer is 401 `Unauthorized` |
| Text.Trim | src/routes/user.routes.ts:40 | trimming yields the slice of the input between its leading and trailing white space, with no white space at either end |
| Text.TrimIdempotent | src/routes/user.routes.ts:40 | trimming twice is trimming once |
| Text.EqualsIgnoreCaseIsLowerEquality | src/routes/user.routes.ts:40 | case-insensitive comparison is equality after lower-casing both sides |
| Text.EqualsIgnoreCaseIsEquivalence | src/routes/user.routes.ts:40 | case-insensitive comparison is reflexive, symmetric and transitive |
| Text.JoinSplit | src/middlewares/authenticate.middleware.ts:19 | splitting on spaces loses nothing: joining the pieces restores the header |
| Text.SplitAfterHead | src/middlewares/authenticate.middleware.ts:19 | the piece before the first space is the first piece of the split |
| Text.IntToStringRoundTrip | src/server.ts:180 | the decimal rendering of a slot inside a wire text reads back to the same integer |

## Left out

- Server bootstrap is left out: Express, helmet, cors, morgan, the socket-server plumbing, `listen`, and the seeding of the admin and device. These are input/output.
- A socket message that is not JSON is left out. It throws an uncaught error. Messages enter the model already parsed, and a non-buffer message is not modelled.
- Interleaving of awaited storage calls and concurrent sockets is left out. Each handler is one atomic step.
- Hub.OnEnrollAck: the success flag is a Boolean. The source passes on whatever value the device sent.
- Hub.OnUnlocked: a failed log insert is modelled as no entry. In the source it is an unhandled rejection, raised after the lock write and the dashboard notification.
- Hub.OnEnrollAck: saving a user deleted meanwhile is modelled as no reply. In the source the save rejects and nothing answers the request.
- Storage failures that answer 500 are left out of the routes, for example a malformed id cast. The only exception is the generated-id clash in `UserRoutes.RegisterWith`.
- Device diagnostics (`POST /device/diagnostics`) is left out. It writes values drawn from a random source.
- Timestamps (`createdAt`, `updatedAt`) are left out. The clock is outside the model.
- Dashboard.SuccessRate: the rate is computed on exact rationals. The source rounds a floating-point product, which at a few exact halves gives one less. For example 29 of 200 gives 14.499999999999998 and so 14, where the model gives 15.
- Text.Lower: case folding is ASCII only. The `i` flag also folds other letters.
- UserRoutes.ChangePassword: absent `currentPassword` or `newPassword` is not modelled. The source has no schema there, so these fail inside the password check or the length check and answer 500.
- The schema middleware's 400 body is left out. The source answers with zod's error list, which is modelled as one fixed message.
- The user schema in `src/models/user.model.ts` is what `src/server.ts`, the authentication middleware and the dashboard import. It declares `username`, `password`, `firstName`, `lastName`, `role` and `createdAt`, and none of `email`, `pin`, `deviceId`, `biometricId` or `biometricEnrolled`. The user routes import `../models`, which is not part of this model. The user record here has the fields the user routes write, with `lecturer` as the default role as the schema file states.
- Hub.OnEnroll: a truthy `userId` that is not a string answers 404 in the model. The source hands the raw value to `findById`: a number, a Boolean or a malformed string fails the id cast and answers 500 `Enrollment failed`, and an object such as `{"$ne": null}` or an array is run as a query, which selects a stored user, broadcasts its `scan:` command and enrolls it. Query operators are outside the model.
- Hub.OnEnroll: assumes stored users expose `biometricId`, which the imported schema does not declare; with that schema the slot would read as undefined.
- Hub.OnEnrollAck: assumes the `biometricEnrolled` write is kept; the imported schema would drop it in strict mode.
- Hub.UnlockActor: assumes a lookup by `biometricId` can find users; with the imported schema the filter field is undeclared.
- UserRoutes.ChangePassword: a `newPassword` that is not a string is not modelled. For example a number has no `length`, so the length check passes and the value is stored.
- UserRoutes.ChangePassword: lengths count characters. JavaScript counts UTF-16 code units, so the 6-character password minimum differs for characters outside the Basic Multilingual Plane.
- EmailRegex.Matches: follows JavaScript's regular-expression rules. The database evaluates `$regex` with PCRE, where `$` also matches before a final newline and `.` also matches `\r`, U+2028 and U+2029. Registration stores the email untrimmed, so a stored `ab@cd` followed by a newline makes `ab@cd` answer 409 there, which the model does not show.
- Dashboard.GetSummary: `populate('user', 'fullName email')` is left out; the recent logs carry raw user ids instead of the user's name and address.
- The global `WebSocket.OPEN` read at `src/server.ts:156`, 178, 225 and 239 and at `src/routes/user.routes.ts:62` is assumed to exist. Only `WebSocketServer` is imported, and Node provides a global `WebSocket` only from version 22; on older versions every send path throws.
- The following parts are not part of this model:
  - token signing and verification, replaced by an abstract `verify`;
  - password hashing;
  - the logger;
  - the database connection and its retries;
  - the notification and access-log listing routes;
  - the clean-up helpers;
  - the router mount table.
- The enrollment callback and the waiting request's response object are represented by a waiter record (request token and user id).

## Findings

| source | as written | input that shows it | evidently intended | confidence | as-written member | corrected member |
|---|---|---|---|---|---|---|
| src/routes/user.routes.ts:39-45 | the trimmed email is pasted unescaped into `new RegExp('^…$', 'i')` for the duplicate check; login at lines 96-100 does the same | registering `a+b` when `a+b` is stored is accepted, because `a+b` does not match itself; `a.b` is refused when only `axb` is stored | compare the stored address with the trimmed input, ignoring case | not executed | EmailRegex.PlusAddressMissesItself | UserRoutes.EmailMatchesIgnoresPadding |
| src/routes/user.routes.ts:7 | the route imports `wss` from the server module, which declares it at `src/server.ts:34` without exporting it; once the user is stored, the broadcast at line 61 throws and the catch at lines 74-77 answers 500 | any accepted registration: the user is stored, no session receives `addUser`, and the client is told 500 `Something went wrong` | broadcast `addUser:<slot>:<pin>` to every open session and answer 201 | not executed | Hub.RegisterAsWrittenStoresButFails | Hub.OnRegister |
| src/routes/user.routes.ts:52 | `biometricId` is the number of users plus one | users in slots 1 and 2; delete the first; the next registration gets slot 2, which the remaining user still holds, so an enrollment acknowledgement for slot 2 then names two users | a slot no stored user holds | not executed | UserRoutes.AsWrittenSlotCollides | UserRoutes.SlotNeverReused |

The hub and the rest of the model use the corrected definitions: `UserRoutes.EmailMatches`,
`UserRoutes.Register`, whose slot is the count plus one while that slot is free and
otherwise one more than the largest slot in use, and `Hub.OnRegister`, which answers 201
and broadcasts. The written behaviour is kept for comparison in
`EmailRegex.EmailMatchesAsWritten`, `UserRoutes.RegisterAsWritten` and
`Hub.OnRegisterAsWritten`. Each of these is as written only in its own defect: the two
registration members keep the written slot (count plus one) and the written 500 after
the failed broadcast respectively, but decide duplicates with the corrected
`UserRoutes.EmailMatches`, not the written regular expression. Under JavaScript's regular-expression rules,
`EmailRegex.AsWrittenAgreesOnPlainInput` proves the two email tests agree on every input
without regular-expression syntax; the database's PCRE rules differ at line ends, as noted
under "Left out".

=== FILE: auth.dfy ===
/** The authentication middleware: the bearer header, the token verification (an
    abstract `verify` from token to the user id it was signed for) and the user lookup,
    tried in that order. The request continues, once, only when all three pass. */
module Auth {
  import opened Base
  import opened Models
  import Text

  datatype Outcome = Proceed(user: User) | Deny(error: HttpError)

  const Unauthorized := HttpError(401, "Unauthorized")
  const InvalidToken := HttpError(401, "Invalid token")
  const UnknownUser := HttpError(404, "user not found")

  /** The second space-separated piece of the header, or the empty string when there is
      none (an absent piece is as falsy as an empty one). */
  function BearerToken(header: string): (t: string)
    ensures ' ' !in t
  {
    var parts := Text.Split(header, ' ');
    if |parts| >= 2 then parts[1] else ""
  }

  /** A header without a space carries no token. */
  lemma NoSpaceNoToken(header: string)
    requires ' ' !in header
    ensures BearerToken(header) == ""
  {
    Text.SplitWithoutSeparator(header, ' ');
  }

  /** The decision of the middleware for one request. */
  function Authenticate(header: Option<string>, verify: string -> Option<UserId>, users: seq<User>): (r: Outcome)
    ensures header.None? || header == Some("") ==> r == Deny(Unauthorized)
    ensures header.Some? && BearerToken(header.value) == "" ==> r == Deny(Unauthorized)
    ensures header.Some? && BearerToken(header.value) != "" && verify(BearerToken(header.value)).None? ==>
              r == Deny(InvalidToken)
    ensures header.Some? && BearerToken(header.value) != "" && verify(BearerToken(header.value)).Some? ==>
              (r == Deny(UnknownUser) <==>
                 forall j :: 0 <= j < |users| ==> users[j].id != verify(BearerToken(header.value)).value)
    ensures r.Proceed? ==> header.Some? && BearerToken(header.value) != ""
                           && verify(BearerToken(header.value)) == Some(r.user.id) && r.user in users
    ensures header.Some? && BearerToken(header.value) != "" && verify(BearerToken(header.value)).Some?
            && (exists j :: 0 <= j < |users| && users[j].id == verify(BearerToken(header.value)).value) ==>
              r.Proceed? && r.user.id == verify(BearerToken(header.value)).value
    ensures r.Deny? ==> r.error in {Unauthorized, InvalidToken, UnknownUser}
  {
    if header.None? || header.value == "" then Deny(Unauthorized)
    else
      var token := BearerToken(header.value);
      if token == "" then Deny(Unauthorized)
      else
        match verify(token)
        case None => Deny(InvalidToken)
        case Some(id) =>
          match FindUserIndex(users, id)
          case None => Deny(UnknownUser)
          case Some(i) => Proceed(users[i])
  }

  /** A header `<scheme> <token>`, with or without further pieces, carries that token. */
  lemma BearerTokenOfHeader(scheme: string, token: string, rest: string)
    requires ' ' !in scheme && ' ' !in token
    ensures BearerToken(scheme + " " + token) == token
    ensures BearerToken(scheme + " " + token + " " + rest) == token
  {
    Text.SplitWithoutSeparator(token, ' ');
    assert scheme + " " + token == scheme + [' '] + token;
    Text.SplitAfterHead(scheme, ' ', token);
    assert scheme + " " + token + " " + rest == scheme + [' '] + (token + [' '] + rest);
    Text.SplitAfterHead(scheme, ' ', token + [' '] + rest);
    Text.SplitAfterHead(token, ' ', rest);
  }

  /** The scheme word is never checked: any word in front of a token authenticates
      exactly as `Bearer` does. */
  lemma SchemeIgnored(scheme: string, token: string, verify: string -> Option<UserId>, users: seq<User>)
    requires ' ' !in scheme && ' ' !in token
    ensures Authenticate(Some(scheme + " " + token), verify, users) == Authenticate(Some("Bearer " + token), verify, users)
  {
    BearerTokenOfHeader(scheme, token, "");
    BearerTokenOfHeader("Bearer", token, "");
    assert "Bearer " + token == "Bearer" + " " + token;
  }

  /** The header is split on single spaces: two spaces after the scheme leave an empty
      second piece, and the request is refused before the token is looked at. */
  lemma DoubleSpaceUnauthorized(token: string, verify: string -> Option<UserId>, users: seq<User>)
    ensures Authenticate(Some("Bearer  " + token), verify, users) == Deny(Unauthorized)
  {
    var h := "Bearer  " + token;
    assert h == "Bearer" + [' '] + ([' '] + token);
    Text.SplitAfterHead("Bearer", ' ', [' '] + token);
    assert ([' '] + token)[0] == ' ' && ([' '] + token)[1..] == token;
    assert Text.Split([' '] + token, ' ') == [""] + Text.Split(token, ' ');
  }

  /** A `Bearer` header whose token verifies as a stored user's id lets the request
      through as that user. */
  lemma BearerAuthenticates(token: string, verify: string -> Option<UserId>, users: seq<User>, i: nat)
    requires token != "" && ' ' !in token
    requires UserIdsUnique(users) && i < |users|
    requires verify(token) == Some(users[i].id)
    ensures Authenticate(Some("Bearer " + token), verify, users) == Proceed(users[i])
  {
    BearerTokenOfHeader("Bearer", token, "");
    assert "Bearer " + token == "Bearer" + " " + token;
    var r := Authenticate(Some("Bearer " + token), verify, users);
    assert r.Proceed? && r.user in users && r.user.id == users[i].id;
  }
}

=== FILE: base.dfy ===
/** Shared vocabulary: optional values, results, the JSON values a request body may
    carry, and the two sequence searches every store lookup is built from. */
module Base {

  datatype Option<+T> = None | Some(value: T)

  datatype Result<+T, +E> = Ok(value: T) | Err(error: E)

  /** An HTTP error answer: the status code and the `message` of the JSON body. */
  datatype HttpError = HttpError(status: int, message: string)

  /** The answer of the schema-validation middleware when a body does not parse (the
      real body lists the schema's error messages). */
  const BodyInvalid := HttpError(400, "invalid request body")

  /** The answer of a handler whose storage call threw. */
  const ServerError := HttpError(500, "Something went wrong")

  /** A parsed JSON value, as found in a request body. */
  datatype Json =
    | JNull
    | JBool(b: bool)
    | JNum(n: real)
    | JStr(s: string)
    | JArray(items: seq<Json>)
    | JObject(fields: seq<(string, Json)>)

  /** JavaScript truthiness of a body field; `None` is an absent field (`undefined`). */
  predicate Truthy(v: Option<Json>) {
    match v
    case None => false
    case Some(JNull) => false
    case Some(JBool(b)) => b
    case Some(JNum(n)) => n != 0.0
    case Some(JStr(s)) => s != ""
    case Some(JArray(_)) => true
    case Some(JObject(_)) => true
  }

  /** Index of the first element of `s` satisfying `p`, in sequence order. */
  function FindFirst<T>(s: seq<T>, p: T -> bool): (r: Option<nat>)
    ensures r.Some? ==> r.value < |s| && p(s[r.value])
    ensures r.Some? ==> forall j :: 0 <= j < r.value ==> !p(s[j])
    ensures r.None? <==> forall j :: 0 <= j < |s| ==> !p(s[j])
  {
    if |s| == 0 then None
    else if p(s[0]) then Some(0)
    else match FindFirst(s[1..], p)
      case None => None
      case Some(i) => Some(i + 1)
  }

  /** The first element of `s` satisfying `p`, if any. */
  function FirstMatch<T>(s: seq<T>, p: T -> bool): (r: Option<T>)
    ensures r.Some? ==> r.value in s && p(r.value)
    ensures r.None? <==> forall j :: 0 <= j < |s| ==> !p(s[j])
  {
    match FindFirst(s, p)
    case None => None
    case Some(i) => Some(s[i])
  }
}

=== FILE: dashboard.dfy ===
/** The dashboard summary: the configured device, every access-log entry newest first,
    the user count, the number of accesses and the percentage of successful ones,
    rounded half up. */
module Dashboard {
  import opened Base
  import opened Models

  datatype Summary = Summary(
    device: Device,
    recentLogs: seq<AccessLog>,
    userCount: nat,
    totalAccesses: nat,
    successRate: int)

  /** Positions of the successful entries: what `countDocuments({ success: true })` counts. */
  function SuccessIndices(log: seq<AccessLog>): set<nat> {
    set i: nat | i < |log| && log[i].success
  }

  /** The number of successful entries. */
  function CountSuccessful(log: seq<AccessLog>): (n: nat)
    ensures n == |SuccessIndices(log)|
    ensures n <= |log|
    ensures n == 0 <==> forall i :: 0 <= i < |log| ==> !log[i].success
    ensures n == |log| <==> forall i :: 0 <= i < |log| ==> log[i].success
  {
    if |log| == 0 then 0
    else
      var init := log[..|log| - 1];
      var rest := CountSuccessful(init);
      assert forall i :: 0 <= i < |init| ==> init[i] == log[i];
      assert SuccessIndices(log) == SuccessIndices(init) + (if log[|log| - 1].success then {|log| - 1} else {});
      rest + (if log[|log| - 1].success then 1 else 0)
  }

  /** `Math.round(successful / total * 100)` on exact rationals, and 0 with no accesses. */
  function SuccessRate(successful: nat, total: nat): (r: int)
    ensures total > 0 ==> RoundsHalfUp(r, successful, total)
    ensures total == 0 ==> r == 0
  {
    if total > 0 then
      QuotientRoundsHalfUp(successful, total);
      (200 * successful + total) / (2 * total)
    else 0
  }

  /** `r` is `100 * successful / total` rounded half up: within one half of it, and
      the larger candidate at a tie. */
  predicate RoundsHalfUp(r: int, successful: nat, total: nat) {
    && (r as real - 0.5) * total as real <= 100.0 * successful as real
    && 100.0 * successful as real < (r as real + 0.5) * total as real
  }

  /** Multiplying by a non-negative factor keeps order. */
  lemma {:induction false} MulMonotonic(x: int, y: int, k: nat)
    requires x <= y
    ensures x * k <= y * k
  {
    if k > 0 {
      MulMonotonic(x, y, k - 1);
      assert x * k == x * (k - 1) + x;
      assert y * k == y * (k - 1) + y;
    }
  }

  /** The quotient is the one multiple that brackets the dividend. */
  lemma DivUnique(a: int, b: int, q: int)
    requires b > 0 && q * b <= a < q * b + b
    ensures a / b == q
  {
    var d := a / b;
    assert d * b <= a < d * b + b;
    if d < q {
      var next := (d + 1) * b;
      assert false;
    } else if d > q {
      var next := (q + 1) * b;
      assert false;
    }
  }

  /** With accesses, the rate is the percentage rounded half up. */
  lemma QuotientRoundsHalfUp(successful: nat, total: nat)
    requires total > 0
    ensures RoundsHalfUp((200 * successful + total) / (2 * total), successful, total)
  {
    var a, b := 200 * successful + total, 2 * total;
    var r := a / b;
    assert r * b <= a < r * b + b;
    assert 2 * total * r <= 200 * successful + total < 2 * total * r + 2 * total;
    assert (2 * total * r) as real <= (200 * successful + total) as real;
    assert (200 * successful + total) as real < (2 * total * r + 2 * total) as real;
  }

  /** More successes never lower the rate. */
  lemma SuccessRateMonotonic(s1: nat, s2: nat, total: nat)
    requires s1 <= s2
    ensures SuccessRate(s1, total) <= SuccessRate(s2, total)
  {
    if total > 0 {
      var b := 2 * total;
      var r1, r2 := SuccessRate(s1, total), SuccessRate(s2, total);
      assert r1 * b <= 200 * s1 + total;
      assert 200 * s2 + total < r2 * b + b;
      if r1 > r2 {
        assert (r2 + 1) * b == r2 * b + b;
        MulMonotonic(r2 + 1, r1, b);
      }
    }
  }

  /** When the successful accesses are some of all accesses, the rate is a percentage;
      it is 100 when all succeeded and 0 when none did. */
  lemma SuccessRateBounds(successful: nat, total: nat)
    requires successful <= total
    ensures 0 <= SuccessRate(successful, total) <= 100
    ensures total > 0 && successful == total ==> SuccessRate(successful, total) == 100
    ensures total > 0 && successful == 0 ==> SuccessRate(successful, total) == 0
  {
    if total > 0 {
      DivUnique(200 * total + total, 2 * total, 100);
      DivUnique(total, 2 * total, 0);
      SuccessRateMonotonic(0, successful, total);
      SuccessRateMonotonic(successful, total, total);
    }
  }

  /** The log sorted newest first: entries are appended in creation order. */
  function NewestFirst(log: seq<AccessLog>): (r: seq<AccessLog>)
    ensures |r| == |log|
    ensures forall i :: 0 <= i < |log| ==> r[i] == log[|log| - 1 - i]
  {
    if |log| == 0 then [] else [log[|log| - 1]] + NewestFirst(log[..|log| - 1])
  }

  lemma NewestFirstInvolutive(log: seq<AccessLog>)
    ensures NewestFirst(NewestFirst(log)) == log
  {
  }

  /** `GET /dashboard/summary`: 404 without the device document; otherwise the
      summary, whose rate is a percentage. */
  function GetSummary(store: DeviceStore, id: string, users: seq<User>, log: seq<AccessLog>)
    : (r: Result<Summary, HttpError>)
    ensures r.Err? <==> id !in store
    ensures r.Err? ==> r.error == DeviceNotFound
    ensures r.Ok? ==> r.value.device == store[id] && r.value.userCount == |users| && r.value.totalAccesses == |log|
    ensures r.Ok? ==> r.value.recentLogs == NewestFirst(log)
    ensures r.Ok? ==> 0 <= r.value.successRate <= 100
    ensures r.Ok? && |log| == 0 ==> r.value.successRate == 0
    ensures r.Ok? ==> r.value.successRate == SuccessRate(|SuccessIndices(log)|, |log|)
    ensures r.Ok? && |log| > 0 ==> RoundsHalfUp(r.value.successRate, CountSuccessful(log), |log|)
  {
    if id !in store then Err(DeviceNotFound)
    else
      var rate := SuccessRate(CountSuccessful(log), |log|);
      SuccessRateBounds(CountSuccessful(log), |log|);
      Ok(Summary(store[id], NewestFirst(log), |users|, |log|, rate))
  }
}

=== FILE: device_routes.dfy ===
/** The device routes: reading the configured device's document and the partial update
    of it. A body is first checked against the update schema (every field optional;
    a lock state from the enumeration, a battery level between 0 and 100, a boolean
    Wi-Fi status); only the fields present are then written. */
module DeviceRoutes {
  import opened Base
  import opened Models

  /** A `PUT /device` body: each field absent or any JSON value. */
  datatype UpdateBody = UpdateBody(lockState: Option<Json>, batteryLevel: Option<Json>, wifiStatus: Option<Json>)

  /** An accepted update: each field absent or a value of the field's type. */
  datatype DeviceUpdate = DeviceUpdate(lockState: Option<LockState>, batteryLevel: Option<real>, wifiStatus: Option<bool>)

  const MinBattery: real := 0.0
  const MaxBattery: real := 100.0

  const NoUpdateFields := HttpError(400, "No valid update fields provided")

  predicate BatteryInRange(x: real) {
    MinBattery <= x <= MaxBattery
  }

  /** The schema's rule for each field, on the raw body. */
  predicate Conforms(b: UpdateBody) {
    && (b.lockState.None? || (b.lockState.value.JStr? && ParseLockState(b.lockState.value.s).Some?))
    && (b.batteryLevel.None? || (b.batteryLevel.value.JNum? && BatteryInRange(b.batteryLevel.value.n)))
    && (b.wifiStatus.None? || b.wifiStatus.value.JBool?)
  }

  /** An update as the body that carries it. */
  function Encode(u: DeviceUpdate): (b: UpdateBody)
    ensures (b.lockState.Some? <==> u.lockState.Some?) && (b.batteryLevel.Some? <==> u.batteryLevel.Some?)
    ensures b.wifiStatus.Some? <==> u.wifiStatus.Some?
  {
    UpdateBody(
      match u.lockState case None => None case Some(l) => Some(JStr(LockStateName(l))),
      match u.batteryLevel case None => None case Some(x) => Some(JNum(x)),
      match u.wifiStatus case None => None case Some(w) => Some(JBool(w)))
  }

  /** The schema check of the validation middleware: the typed update, or 400. */
  function ValidateUpdate(b: UpdateBody): (r: Result<DeviceUpdate, HttpError>)
    ensures r.Ok? <==> Conforms(b)
    ensures r.Err? ==> r.error == BodyInvalid
    ensures r.Ok? ==> Encode(r.value) == b
    ensures r.Ok? && r.value.batteryLevel.Some? ==> BatteryInRange(r.value.batteryLevel.value)
  {
    if !Conforms(b) then Err(BodyInvalid)
    else
      Ok(DeviceUpdate(
        if b.lockState.None? then None else ParseLockState(b.lockState.value.s),
        if b.batteryLevel.None? then None else Some(b.batteryLevel.value.n),
        if b.wifiStatus.None? then None else Some(b.wifiStatus.value.b)))
  }

  /** Every update whose battery level is in range is accepted back from its body. */
  lemma ValidateEncode(u: DeviceUpdate)
    requires u.batteryLevel.Some? ==> BatteryInRange(u.batteryLevel.value)
    ensures ValidateUpdate(Encode(u)) == Ok(u)
  {
    if u.lockState.Some? {
      LockStateNameRoundTrip(u.lockState.value);
    }
  }

  /** An update that names no field. */
  predicate IsEmpty(u: DeviceUpdate) {
    u.lockState.None? && u.batteryLevel.None? && u.wifiStatus.None?
  }

  /** The partial write: present fields replace the stored ones; the others, and the
      device id, keep their stored values. */
  function Apply(d: Device, u: DeviceUpdate): (r: Device)
    ensures r.deviceId == d.deviceId
    ensures r.lockState == (if u.lockState.Some? then u.lockState.value else d.lockState)
    ensures r.batteryLevel == (if u.batteryLevel.Some? then u.batteryLevel.value else d.batteryLevel)
    ensures r.wifiStatus == (if u.wifiStatus.Some? then u.wifiStatus.value else d.wifiStatus)
  {
    Device(
      d.deviceId,
      if u.lockState.Some? then u.lockState.value else d.lockState,
      if u.batteryLevel.Some? then u.batteryLevel.value else d.batteryLevel,
      if u.wifiStatus.Some? then u.wifiStatus.value else d.wifiStatus)
  }

  /** An empty update writes nothing. */
  lemma ApplyEmpty(d: Device, u: DeviceUpdate)
    requires IsEmpty(u)
    ensures Apply(d, u) == d
  {
  }

  /** Writing the same update twice leaves the document as writing it once. */
  lemma ApplyIdempotent(d: Device, u: DeviceUpdate)
    ensures Apply(Apply(d, u), u) == Apply(d, u)
  {
  }

  /** An accepted update keeps a battery level that was in range in range. */
  lemma ApplyKeepsBatteryInRange(d: Device, b: UpdateBody)
    requires BatteryInRange(d.batteryLevel) && ValidateUpdate(b).Ok?
    ensures BatteryInRange(Apply(d, ValidateUpdate(b).value).batteryLevel)
  {
  }

  /** `GET /device`: the configured device's document, or 404. */
  function GetDevice(store: DeviceStore, id: string): (r: Result<Device, HttpError>)
    ensures r.Err? <==> id !in store
    ensures r.Err? ==> r.error == DeviceNotFound
    ensures r.Ok? ==> r.value == store[id]
  {
    if id in store then Ok(store[id]) else Err(DeviceNotFound)
  }

  /** `PUT /device`: 400 for a body the schema refuses, then 400 for an update naming no
      field, then 404 when the document is missing (nothing is created); otherwise
      the partial write, answered with the updated document. */
  function PutDevice(store: DeviceStore, id: string, b: UpdateBody): (r: Result<(DeviceStore, Device), HttpError>)
    ensures !Conforms(b) ==> r == Err(BodyInvalid)
    ensures Conforms(b) && IsEmpty(ValidateUpdate(b).value) ==> r == Err(NoUpdateFields)
    ensures Conforms(b) && !IsEmpty(ValidateUpdate(b).value) && id !in store ==> r == Err(DeviceNotFound)
    ensures r.Ok? <==> Conforms(b) && !IsEmpty(ValidateUpdate(b).value) && id in store
    ensures r.Ok? ==> r.value.0.Keys == store.Keys
    ensures r.Ok? ==> r.value.1 == r.value.0[id] && r.value.1 == Apply(store[id], ValidateUpdate(b).value)
    ensures r.Ok? ==> forall k :: k in store && k != id ==> r.value.0[k] == store[k]
    ensures r.Ok? && KeyedById(store) ==> KeyedById(r.value.0)
  {
    match ValidateUpdate(b)
    case Err(e) => Err(e)
    case Ok(u) =>
      if IsEmpty(u) then Err(NoUpdateFields)
      else if id !in store then Err(DeviceNotFound)
      else
        var d := Apply(store[id], u);
        Ok((store[id := d], d))
  }

  /** Repeating an accepted `PUT` answers the same document and leaves the collection
      as the first one left it. */
  lemma PutIdempotent(store: DeviceStore, id: string, b: UpdateBody)
    requires PutDevice(store, id, b).Ok?
    ensures PutDevice(PutDevice(store, id, b).value.0, id, b) == PutDevice(store, id, b)
  {
    var u := ValidateUpdate(b).value;
    var (s1, d1) := PutDevice(store, id, b).value;
    ApplyIdempotent(store[id], u);
    assert s1[id := Apply(s1[id], u)] == s1;
  }
}

=== FILE: email_regex.dfy ===
/** The email test exactly as the registration and login handlers build it: the trimmed
    input is pasted, unescaped, into `^...$` and matched case-insensitively. This
    module models that regular expression for the inputs built from literal
    characters, `.` and the quantifiers `*`, `+`, `?`, which is enough to show that
    it disagrees with the case-insensitive equality the handlers evidently mean
    (`UserRoutes.EmailMatches`, which the rest of the model uses). */
module EmailRegex {
  import opened Base
  import opened Models
  import Text
  import UserRoutes

  datatype Atom = Lit(c: char) | AnyChar

  datatype Quant = One | Opt | Star | Plus

  datatype Piece = Piece(atom: Atom, quant: Quant)

  /** The result of `new RegExp(...)` on the pasted input: a pattern, a syntax error
      (a quantifier with nothing to repeat, which the handler turns into a 500), or
      syntax this model does not cover (groups, classes, escapes, anchors, braces). */
  datatype Compiled = Pattern(pieces: seq<Piece>) | SyntaxError | Unsupported

  predicate IsQuantifier(c: char) {
    c == '*' || c == '+' || c == '?'
  }

  predicate IsUnsupported(c: char) {
    c == '\\' || c == '(' || c == ')' || c == '[' || c == ']' || c == '{' || c == '}'
    || c == '|' || c == '^' || c == '$'
  }

  /** A character with no meaning to the regular-expression syntax. */
  predicate IsPlain(c: char) {
    !IsQuantifier(c) && !IsUnsupported(c) && c != '.'
  }

  function QuantOf(c: char): Quant
    requires IsQuantifier(c)
  {
    if c == '*' then Star else if c == '+' then Plus else Opt
  }

  function Compile(p: string): (r: Compiled)
    ensures (forall k :: 0 <= k < |p| ==> IsPlain(p[k])) ==>
              r.Pattern? && |r.pieces| == |p| && forall k :: 0 <= k < |p| ==> r.pieces[k] == Piece(Lit(p[k]), One)
  {
    if |p| == 0 then Pattern([])
    else if IsUnsupported(p[0]) then Unsupported
    else if IsQuantifier(p[0]) then SyntaxError
    else
      var atom := if p[0] == '.' then AnyChar else Lit(p[0]);
      var (quant, rest) :=
        if |p| >= 2 && IsQuantifier(p[1]) then
          // a `?` right after a quantifier only makes it lazy, which cannot change
          // whether a whole-string match exists
          (QuantOf(p[1]), if |p| >= 3 && p[2] == '?' then p[3..] else p[2..])
        else (One, p[1..]);
      assert (forall k :: 0 <= k < |p| ==> IsPlain(p[k])) ==> quant == One && rest == p[1..];
      match Compile(rest)
      case Pattern(ps) => Pattern([Piece(atom, quant)] + ps)
      case other => other
  }

  /** Line terminators, which `.` does not match. */
  predicate IsLineTerminator(c: char) {
    c == '\n' || c == '\r' || c == '\U{2028}' || c == '\U{2029}'
  }

  /** One character against one atom under the `i` flag. */
  predicate AtomMatches(a: Atom, c: char) {
    match a
    case AnyChar => !IsLineTerminator(c)
    case Lit(x) => Text.Lower(x) == Text.Lower(c)
  }

  /** Whether the pieces, anchored at both ends, match the whole of `s`. */
  predicate Matches(ps: seq<Piece>, s: string)
    decreases |s|, |ps|
  {
    if |ps| == 0 then |s| == 0
    else
      var p := ps[0];
      match p.quant
      case One => |s| > 0 && AtomMatches(p.atom, s[0]) && Matches(ps[1..], s[1..])
      case Opt => Matches(ps[1..], s) || (|s| > 0 && AtomMatches(p.atom, s[0]) && Matches(ps[1..], s[1..]))
      case Star => Matches(ps[1..], s) || (|s| > 0 && AtomMatches(p.atom, s[0]) && Matches(ps, s[1..]))
      case Plus => |s| > 0 && AtomMatches(p.atom, s[0]) && Matches([Piece(p.atom, Star)] + ps[1..], s[1..])
  }

  /** The handler's test of one stored email: `Some(matched)`, or `None` when the
      pasted input is a syntax error or outside the modelled syntax. */
  function EmailMatchesAsWritten(stored: string, input: string): (r: Option<bool>)
    ensures (forall k :: 0 <= k < |Text.Trim(input)| ==> IsPlain(Text.Trim(input)[k])) ==> r.Some?
  {
    match Compile(Text.Trim(input))
    case Pattern(ps) => Some(Matches(ps, stored))
    case _ => None
  }

  /** On a literal pattern the regular expression is case-insensitive equality. */
  lemma {:induction false} LiteralPatternIsEquality(p: string, s: string)
    requires forall k :: 0 <= k < |p| ==> IsPlain(p[k])
    ensures Matches(Compile(p).pieces, s) <==> Text.EqualsIgnoreCase(s, p)
  {
    var ps := Compile(p).pieces;
    if |p| > 0 {
      LiteralPatternIsEquality(p[1..], if |s| > 0 then s[1..] else s);
      assert Compile(p[1..]).pieces == ps[1..];
      if |s| > 0 && |s| == |p| {
        if Text.EqualsIgnoreCase(s[1..], p[1..]) && Text.Lower(s[0]) == Text.Lower(p[0]) {
          assert forall k :: 1 <= k < |s| ==> s[k] == s[1..][k - 1] && p[k] == p[1..][k - 1];
        }
        if Text.EqualsIgnoreCase(s, p) {
          assert forall k :: 0 <= k < |s| - 1 ==> s[1..][k] == s[k + 1] && p[1..][k] == p[k + 1];
        }
      }
    }
  }

  /** Wherever the trimmed input holds no regular-expression syntax, the handler's test
      and case-insensitive equality agree. */
  lemma AsWrittenAgreesOnPlainInput(stored: string, input: string)
    requires forall k :: 0 <= k < |Text.Trim(input)| ==> IsPlain(Text.Trim(input)[k])
    ensures EmailMatchesAsWritten(stored, input) == Some(UserRoutes.EmailMatches(stored, input))
  {
    LiteralPatternIsEquality(Text.Trim(input), stored);
  }

  /** An address with a `+` does not match itself: registering `a+b` twice is accepted,
      and an admin with such an address can never log in. */
  lemma PlusAddressMissesItself()
    ensures EmailMatchesAsWritten("a+b", "a+b") == Some(false)
    ensures UserRoutes.EmailMatches("a+b", "a+b")
  {
    Text.TrimOfTrimmed("a+b");
    var ps := [Piece(Lit('a'), Plus), Piece(Lit('b'), One)];
    assert Compile("b") == Pattern([Piece(Lit('b'), One)]);
    assert Compile("a+b") == Pattern(ps);
    assert !Matches([Piece(Lit('b'), One)], "+b");
    assert !Matches([Piece(Lit('a'), Star), Piece(Lit('b'), One)], "+b");
    assert !Matches(ps, "a+b");
  }

  /** A `.` matches any character: `a.b` is refused as a duplicate of the different
      address `axb`. */
  lemma DotAddressMatchesOthers()
    ensures EmailMatchesAsWritten("axb", "a.b") == Some(true)
    ensures !UserRoutes.EmailMatches("axb", "a.b")
  {
    Text.TrimOfTrimmed("a.b");
    var ps := CompileDotPattern();
    assert "axb"[1..] == "xb" && "xb"[1..] == "b" && "b"[1..] == [];
    assert Matches(ps[2..], "b");
    assert Matches(ps[1..], "xb");
    assert Matches(ps, "axb");
    assert "axb"[1] == 'x' && "a.b"[1] == '.';
    assert Text.Lower('x') != Text.Lower('.');
  }

  lemma CompileDotPattern() returns (ps: seq<Piece>)
    ensures ps == [Piece(Lit('a'), One), Piece(AnyChar, One), Piece(Lit('b'), One)]
    ensures Compile("a.b") == Pattern(ps)
  {
    ps := [Piece(Lit('a'), One), Piece(AnyChar, One), Piece(Lit('b'), One)];
    assert "a.b"[1..] == ".b" && ".b"[1..] == "b" && "b"[1..] == [];
    assert Compile([]) == Pattern([]);
    assert Compile("b") == Pattern(ps[2..]);
    assert Compile(".b") == Pattern(ps[1..]);
  }
}

=== FILE: hub.dfy ===
/** The real-time hub of the server as one state machine. Every socket event and every
    HTTP handler that touches the hub is an atomic step from a state to a new state
    and an ordered list of effects: texts sent to sessions, replies to waiting HTTP
    requests, and entries appended to the access log. Storage is part of the state
    (the device collection, the users, the access log). */
module Hub {
  import opened Base
  import opened Models
  import opened Registry
  import opened Pending
  import Text
  import UserRoutes

  datatype Effect =
    | Send(to: nat, text: string)
    | Reply(request: nat, status: int, success: Option<bool>, message: string)
    | Append(entry: AccessLog)

  datatype State = State(
    sessions: Sessions,
    nextSession: nat,
    hardwareActive: bool,
    pending: Table,
    devices: DeviceStore,
    users: seq<User>,
    log: seq<AccessLog>)

  /** The process environment the hub reads: the configured device id. */
  datatype Config = Config(deviceId: string)

  /** A parsed socket message, by its `action`. */
  datatype SocketMessage =
    | CheckHardwareStatus
    | EnrollAck(fingerprintId: Slot, success: bool)
    | UnlockedReport(source: Option<string>, id: Option<int>)
    | LockedReport
    | FailedReport(source: Option<string>)
    | OtherAction

  datatype Event =
    | Connect(clientType: Option<string>)
    | Closing(session: nat)
    | Close(session: nat)
    | Message(session: nat, msg: SocketMessage)
    | EnrollRequest(request: nat, userId: Option<Json>)
    | DoorControlRequest(request: nat, action: Option<Json>)
    | RegisterRequest(request: nat, body: UserRoutes.RegisterBody, newId: UserId)

  /** The fixed account that unlocks reported from the mobile app are attributed to. */
  const MobileUserId: UserId := "67fbd731656de6e6cec336cd"

  /** The hub's own consistency: distinct session ids below the id counter, the device
      collection keyed by id, distinct user ids and fingerprint slots, and a set
      hardware flag only while a hardware session is registered. */
  predicate Valid(s: State) {
    && IdsUnique(s.sessions)
    && (forall i :: 0 <= i < |s.sessions| ==> s.sessions[i].id < s.nextSession)
    && KeyedById(s.devices)
    && UserIdsUnique(s.users)
    && UserRoutes.SlotsUnique(s.users)
    && (s.hardwareActive ==> HasEsp32(s.sessions))
  }

  /** A first-match send: to the first open session of the type, or to nobody. */
  function SendFirst(reg: Sessions, kind: ClientType, text: string): (r: seq<Effect>)
    ensures |r| <= 1
    ensures |r| == 1 <==> FirstOpen(reg, kind).Some?
    ensures |r| == 1 ==> r[0] == Send(FirstOpen(reg, kind).value, text)
  {
    match FirstOpen(reg, kind)
    case None => []
    case Some(id) => [Send(id, text)]
  }

  /** A broadcast: the text to every open session of either type, in registration order. */
  function Broadcast(reg: Sessions, text: string): (r: seq<Effect>)
    ensures forall k :: 0 <= k < |r| ==> r[k].Send? && r[k].text == text
    ensures forall x :: Send(x, text) in r <==> exists i :: 0 <= i < |reg| && reg[i].open && reg[i].id == x
    ensures IdsUnique(reg) ==> forall a, b :: 0 <= a < b < |r| ==> r[a] != r[b]
  {
    var ids := OpenIds(reg);
    var r := seq(|ids|, k requires 0 <= k < |ids| => Send(ids[k], text));
    assert forall x :: Send(x, text) in r <==> x in ids by {
      forall x | x in ids ensures Send(x, text) in r {
        var k :| 0 <= k < |ids| && ids[k] == x;
        assert r[k] == Send(x, text);
      }
    }
    r
  }

  /** The lock-state write `findOneAndUpdate({ deviceId }, { lockState })`: only the
      configured device's lock state changes, and only if the record exists. */
  function SetLock(devices: DeviceStore, id: string, ls: LockState): (r: DeviceStore)
    ensures r.Keys == devices.Keys
    ensures id in devices ==> r[id] == devices[id].(lockState := ls)
    ensures forall k :: k in devices && k != id ==> r[k] == devices[k]
    ensures KeyedById(devices) ==> KeyedById(r)
  {
    if id in devices then devices[id := devices[id].(lockState := ls)] else devices
  }

  const HardwareStatusPrefix := "{\"action\":\"hardwareStatus\",\"hardwareActive\":"

  /** `JSON.stringify({ action: 'hardwareStatus', hardwareActive })`: the flag can be read
      back from the first letter after the prefix. */
  function HardwareStatusText(active: bool): (t: string)
    ensures |t| > |HardwareStatusPrefix| && t[..|HardwareStatusPrefix|] == HardwareStatusPrefix
    ensures active <==> t[|HardwareStatusPrefix|] == 't'
  {
    HardwareStatusPrefix + (if active then "true" else "false") + "}"
  }

  /** A slot as a template literal renders it. */
  function SlotText(slot: Slot): string {
    match slot
    case None => "undefined"
    case Some(n) => Text.IntToString(n)
  }

  /** The enrollment command `scan:<slot>`: the device reads the slot back from the
      decimal digits after the colon. */
  function ScanCommand(slot: Slot): (t: string)
    ensures |t| > 5 && t[..5] == "scan:"
    ensures slot.None? ==> t[5..] == "undefined"
    ensures slot.Some? ==> t[5..] == Text.IntToString(slot.value) && Text.ParseInt(t[5..]) == slot.value
  {
    var t := "scan:" + SlotText(slot);
    assert t[5..] == SlotText(slot);
    if slot.Some? then Text.IntToStringRoundTrip(slot.value); t else t
  }

  /** The new-credential command `addUser:<slot>:<pin>`: the device reads the slot back
      from the text between the first two colons and takes the rest as the pin. */
  function AddUserCommand(slot: Slot, pin: string): (t: string)
    ensures |t| > 9 + |pin| && t[..8] == "addUser:"
    ensures t[|t| - |pin| - 1] == ':' && t[|t| - |pin|..] == pin
    ensures slot.None? ==> t[8..|t| - |pin| - 1] == "undefined"
    ensures slot.Some? ==> t[8..|t| - |pin| - 1] == Text.IntToString(slot.value)
                           && Text.ParseInt(t[8..|t| - |pin| - 1]) == slot.value
    ensures slot.Some? ==> forall k :: 8 <= k < |t| - |pin| - 1 ==> t[k] != ':'
  {
    var digits := SlotText(slot);
    var t := "addUser:" + digits + ":" + pin;
    assert t[8..|t| - |pin| - 1] == digits;
    assert t[|t| - |pin|..] == pin;
    assert forall k :: 8 <= k < |t| - |pin| - 1 ==> t[k] == digits[k - 8];
    if slot.Some? then Text.IntToStringRoundTrip(slot.value); t else t
  }

  /** The access-log entries a list of effects appends, in order. */
  function Appended(effs: seq<Effect>): (r: seq<AccessLog>)
    ensures |r| <= |effs|
  {
    if |effs| == 0 then []
    else (if effs[0].Append? then [effs[0].entry] else []) + Appended(effs[1..])
  }

  lemma {:induction false} AppendedConcat(a: seq<Effect>, b: seq<Effect>)
    ensures Appended(a + b) == Appended(a) + Appended(b)
  {
    if |a| > 0 {
      assert (a + b)[1..] == a[1..] + b;
      AppendedConcat(a[1..], b);
    } else {
      assert a + b == b;
    }
  }

  lemma {:induction false} AppendedNone(effs: seq<Effect>)
    requires forall k :: 0 <= k < |effs| ==> !effs[k].Append?
    ensures Appended(effs) == []
  {
    if |effs| > 0 {
      AppendedNone(effs[1..]);
    }
  }

  /** Whether an open session carries the id. */
  predicate IsOpen(reg: Sessions, x: nat) {
    exists i :: 0 <= i < |reg| && reg[i].open && reg[i].id == x
  }

  /** Every text in the effects goes to a session that is open. */
  predicate SendsToOpen(reg: Sessions, effs: seq<Effect>) {
    forall k :: 0 <= k < |effs| && effs[k].Send? ==> IsOpen(reg, effs[k].to)
  }

  /** The effects answer the request exactly once, as their last effect, after texts only. */
  predicate AnswersOnceLast(effs: seq<Effect>, req: nat) {
    && |effs| >= 1
    && effs[|effs| - 1].Reply? && effs[|effs| - 1].request == req
    && forall k :: 0 <= k < |effs| - 1 ==> effs[k].Send?
  }

  /** The connection part of the state is as it was. */
  predicate ConnectionsUnchanged(s: State, t: State) {
    t.sessions == s.sessions && t.nextSession == s.nextSession && t.hardwareActive == s.hardwareActive
  }

  /** The stored records and the enrollment table are as they were. */
  predicate StorageUnchanged(s: State, t: State) {
    t.pending == s.pending && t.devices == s.devices && t.users == s.users && t.log == s.log
  }

  /** `after` is `before` with the lock state `ls` written into the record `id`, if there
      is one: no record is created or removed, and no other field or record changes. */
  predicate LockWritten(before: DeviceStore, after: DeviceStore, id: string, ls: LockState) {
    && after.Keys == before.Keys
    && (id in before ==> after[id] == before[id].(lockState := ls))
    && forall k :: k in before && k != id ==> after[k] == before[k]
  }

  /** `connection`: the socket joins the registry under a fresh id, after every earlier
      one; a hardware connection sets the hardware flag, a dashboard leaves it. */
  function OnConnect(s: State, clientType: Option<string>): (r: (State, seq<Effect>))
    ensures r.1 == []
    ensures |r.0.sessions| == |s.sessions| + 1 && r.0.sessions[..|s.sessions|] == s.sessions
    ensures var added := r.0.sessions[|s.sessions|];
            && added.open && added.kind == Classify(clientType) && r.0.nextSession > added.id
            && (Valid(s) ==> !Registered(s.sessions, added.id))
    ensures r.0.hardwareActive <==> s.hardwareActive || clientType != Some(WebClientParam)
    ensures StorageUnchanged(s, r.0)
  {
    var kind := Classify(clientType);
    (s.(sessions := Register(s.sessions, s.nextSession, kind),
        nextSession := s.nextSession + 1,
        hardwareActive := if kind == Esp32 then true else s.hardwareActive),
     [])
  }

  /** A socket starting to close stays registered but receives nothing any more. */
  function OnClosing(s: State, sid: nat): (r: (State, seq<Effect>))
    ensures r.1 == []
    ensures forall x :: Registered(r.0.sessions, x) <==> Registered(s.sessions, x)
    ensures !IsOpen(r.0.sessions, sid)
    ensures forall x :: x != sid ==> (IsOpen(r.0.sessions, x) <==> IsOpen(s.sessions, x))
    ensures HasEsp32(r.0.sessions) <==> HasEsp32(s.sessions)
    ensures r.0.nextSession == s.nextSession && r.0.hardwareActive == s.hardwareActive
    ensures StorageUnchanged(s, r.0)
  {
    var t := MarkClosing(s.sessions, sid);
    assert forall x :: Registered(t, x) <==> Registered(s.sessions, x) by {
      forall x | Registered(s.sessions, x) ensures Registered(t, x) {
        var i :| 0 <= i < |s.sessions| && s.sessions[i].id == x;
        assert t[i].id == x;
      }
    }
    assert HasEsp32(s.sessions) ==> HasEsp32(t) by {
      if HasEsp32(s.sessions) {
        var i :| 0 <= i < |s.sessions| && s.sessions[i].kind == Esp32;
        assert t[i].kind == Esp32;
      }
    }
    assert forall x :: x != sid && IsOpen(s.sessions, x) ==> IsOpen(t, x) by {
      forall x | x != sid && IsOpen(s.sessions, x) ensures IsOpen(t, x) {
        var i :| 0 <= i < |s.sessions| && s.sessions[i].open && s.sessions[i].id == x;
        assert t[i].open && t[i].id == x;
      }
    }
    (s.(sessions := t), [])
  }

  /** `close`: the session leaves the registry and every other one stays reachable as
      before; closing a hardware session clears the hardware flag, whatever other
      hardware sessions remain, and closing a dashboard leaves the flag. */
  function OnClose(s: State, sid: nat): (r: (State, seq<Effect>))
    ensures r.1 == []
    ensures !Registered(r.0.sessions, sid)
    ensures forall x :: x != sid ==> (IsOpen(r.0.sessions, x) <==> IsOpen(s.sessions, x))
    ensures Registered(s.sessions, sid) && Lookup(s.sessions, sid).value.kind == Esp32 ==> !r.0.hardwareActive
    ensures !(Registered(s.sessions, sid) && Lookup(s.sessions, sid).value.kind == Esp32) ==>
              r.0.hardwareActive == s.hardwareActive
    ensures r.0.nextSession == s.nextSession
    ensures StorageUnchanged(s, r.0)
  {
    var closed := Lookup(s.sessions, sid);
    var active := if closed.Some? && closed.value.kind == Esp32 then false else s.hardwareActive;
    var t := Unregister(s.sessions, sid);
    assert forall x :: x != sid ==> (IsOpen(t, x) <==> IsOpen(s.sessions, x)) by {
      forall x | x != sid ensures IsOpen(t, x) <==> IsOpen(s.sessions, x) {
        if IsOpen(s.sessions, x) {
          var i :| 0 <= i < |s.sessions| && s.sessions[i].open && s.sessions[i].id == x;
          assert s.sessions[i] in t;
        }
        if IsOpen(t, x) {
          var i :| 0 <= i < |t| && t[i].open && t[i].id == x;
          assert t[i] in s.sessions;
        }
      }
    }
    (s.(sessions := t, hardwareActive := active), [])
  }

  /** `checkHardwareStatus`: the flag goes back to the asking session, and only while it
      is still open; nothing else happens. */
  function OnCheckHardwareStatus(s: State, sid: nat): (r: (State, seq<Effect>))
    ensures r.0 == s
    ensures |r.1| <= 1
    ensures |r.1| == 1 <==> Registered(s.sessions, sid) && Lookup(s.sessions, sid).value.open
    ensures forall k :: 0 <= k < |r.1| ==> r.1[k] == Send(sid, HardwareStatusText(s.hardwareActive))
    ensures SendsToOpen(s.sessions, r.1)
  {
    var me := Lookup(s.sessions, sid);
    if me.Some? && me.value.open then
      var i :| 0 <= i < |s.sessions| && s.sessions[i] == me.value;
      assert IsOpen(s.sessions, sid);
      (s, [Send(sid, HardwareStatusText(s.hardwareActive))])
    else (s, [])
  }

  /** `enrollAck`: the waiter for the slot is taken out and told the outcome; on success
      the user is marked enrolled first (a user deleted meanwhile makes `save` reject,
      so the request gets no reply). An unknown slot changes nothing. */
  function OnEnrollAck(s: State, slot: Slot, success: bool): (r: (State, seq<Effect>))
    ensures slot !in s.pending ==> r == (s, [])
    ensures slot in s.pending ==> r.0.pending == s.pending - {slot}
    ensures r.0.sessions == s.sessions && r.0.nextSession == s.nextSession && r.0.hardwareActive == s.hardwareActive
    ensures r.0.devices == s.devices && r.0.log == s.log
    ensures |r.1| <= 1
    ensures forall k :: 0 <= k < |r.1| ==> r.1[k].Reply? && slot in s.pending && r.1[k].request == s.pending[slot].request
    ensures slot in s.pending && !success ==>
              r.1 == [Reply(s.pending[slot].request, 500, Some(false), "Enrollment failed")] && r.0.users == s.users
    ensures slot in s.pending && success ==>
              match FindUserIndex(s.users, s.pending[slot].user)
              case Some(i) => r.0.users == s.users[i := s.users[i].(biometricEnrolled := true)]
                              && r.1 == [Reply(s.pending[slot].request, 200, Some(true), "Enrollment successful")]
              case None => r.0.users == s.users && r.1 == []
  {
    match Resolve(s.pending, slot)
    case (None, _) => (s, [])
    case (Some(w), rest) =>
      if !success then
        (s.(pending := rest), [Reply(w.request, 500, Some(false), "Enrollment failed")])
      else
        match FindUserIndex(s.users, w.user)
        case None => (s.(pending := rest), [])
        case Some(i) =>
          (s.(pending := rest, users := s.users[i := s.users[i].(biometricEnrolled := true)]),
           [Reply(w.request, 200, Some(true), "Enrollment successful")])
  }

  /** The account an unlock is attributed to: the fixed mobile account for the mobile
      source; otherwise the user enrolled under the reported slot, looked up only when
      the slot is present and non-zero. */
  function UnlockActor(users: seq<User>, source: Option<string>, id: Option<int>): (r: Option<UserId>)
    ensures source == Some("mobile") ==> r == Some(MobileUserId)
    ensures source != Some("mobile") && (id.None? || id == Some(0)) ==> r.None?
    ensures source != Some("mobile") && r.Some? ==>
              id.Some? && exists j :: 0 <= j < |users| && users[j].id == r.value && users[j].biometricId == id
    ensures source != Some("mobile") && id.Some? && id.value != 0 && r.None? ==>
              forall j :: 0 <= j < |users| ==> users[j].biometricId != id
  {
    if source == Some("mobile") then Some(MobileUserId)
    else if id.Some? && id.value != 0 then
      match FindByBiometric(users, id.value)
      case None => None
      case Some(u) => Some(u.id)
    else None
  }

  /** The log entry for a reported event, when the schema accepts it (`accessMethod`
      is required: an absent or empty source makes the insert fail). */
  function EventEntry(user: Option<UserId>, source: Option<string>, success: bool, action: string): (r: seq<Effect>)
    ensures |r| <= 1
    ensures |r| == 1 <==> RequiredString(source)
    ensures |r| == 1 ==> r[0] == Append(AccessLog(user, source.value, success, Some(action)))
  {
    match NewAccessLog(AccessLogFields(user, source, Some(success), Some(action)))
    case Err(_) => []
    case Ok(e) => [Append(e)]
  }

  /** What a first-match notification of `text` to the dashboards may hold: nothing but
      that text, to the first open dashboard, and to it whenever there is one. */
  predicate NotifiesFirstDashboard(reg: Sessions, effs: seq<Effect>, text: string) {
    && (forall k :: 0 <= k < |effs| && effs[k].Send? ==>
          k == 0 && FirstOpen(reg, Web) == Some(effs[k].to) && effs[k].text == text)
    && (FirstOpen(reg, Web).Some? ==> |effs| >= 1 && effs[0] == Send(FirstOpen(reg, Web).value, text))
  }

  /** `unlocked`: the lock state becomes unlocked (even when it already was), the first
      open dashboard is told, then one successful entry is logged for the actor. */
  function OnUnlocked(cfg: Config, s: State, source: Option<string>, id: Option<int>): (r: (State, seq<Effect>))
    ensures ConnectionsUnchanged(s, r.0) && r.0.pending == s.pending && r.0.users == s.users
    ensures LockWritten(s.devices, r.0.devices, cfg.deviceId, Unlocked)
    ensures forall k :: 0 <= k < |r.1| ==> !r.1[k].Reply?
    ensures NotifiesFirstDashboard(s.sessions, r.1, "unlocked") && SendsToOpen(s.sessions, r.1)
    ensures r.0.log == s.log + Appended(r.1)
    ensures Appended(r.1) == if RequiredString(source)
                             then [AccessLog(UnlockActor(s.users, source, id), source.value, true, Some("door unlocked"))]
                             else []
  {
    var send := SendFirst(s.sessions, Web, "unlocked");
    var entry := EventEntry(UnlockActor(s.users, source, id), source, true, "door unlocked");
    AppendedConcat(send, entry);
    AppendedNone(send);
    assert Appended(entry) == if |entry| == 1 then [entry[0].entry] else [];
    var effs := send + entry;
    (s.(devices := SetLock(s.devices, cfg.deviceId, Unlocked), log := s.log + Appended(effs)), effs)
  }

  /** `locked`: the lock state becomes locked and the first open dashboard is told;
      nothing is logged. */
  function OnLocked(cfg: Config, s: State): (r: (State, seq<Effect>))
    ensures ConnectionsUnchanged(s, r.0) && r.0.pending == s.pending && r.0.users == s.users && r.0.log == s.log
    ensures LockWritten(s.devices, r.0.devices, cfg.deviceId, Locked)
    ensures forall k :: 0 <= k < |r.1| ==> r.1[k].Send?
    ensures NotifiesFirstDashboard(s.sessions, r.1, "locked") && SendsToOpen(s.sessions, r.1)
  {
    (s.(devices := SetLock(s.devices, cfg.deviceId, Locked)), SendFirst(s.sessions, Web, "locked"))
  }

  /** `failed`: one unsuccessful entry without a user; nothing is sent and the lock state
      is not touched. */
  function OnFailed(s: State, source: Option<string>): (r: (State, seq<Effect>))
    ensures ConnectionsUnchanged(s, r.0) && r.0.pending == s.pending && r.0.devices == s.devices && r.0.users == s.users
    ensures forall k :: 0 <= k < |r.1| ==> r.1[k].Append?
    ensures r.0.log == s.log + Appended(r.1)
    ensures Appended(r.1) == if RequiredString(source)
                             then [AccessLog(None, source.value, false, Some("failed attempt"))]
                             else []
  {
    var effs := EventEntry(None, source, false, "failed attempt");
    assert Appended(effs) == if |effs| == 1 then [effs[0].entry] else [];
    (s.(log := s.log + Appended(effs)), effs)
  }

  /** A message from a socket. A socket no longer registered delivers nothing. */
  function OnMessage(cfg: Config, s: State, sid: nat, msg: SocketMessage): (r: (State, seq<Effect>))
    ensures !Registered(s.sessions, sid) ==> r == (s, [])
    ensures SendsToOpen(s.sessions, r.1)
  {
    if !Registered(s.sessions, sid) then (s, [])
    else
      match msg
      case CheckHardwareStatus => OnCheckHardwareStatus(s, sid)
      case EnrollAck(slot, success) => OnEnrollAck(s, slot, success)
      case UnlockedReport(source, id) => OnUnlocked(cfg, s, source, id)
      case LockedReport => OnLocked(cfg, s)
      case FailedReport(source) => OnFailed(s, source)
      case OtherAction => (s, [])
  }

  /** The user an `/enroll` body names, if the id is a string naming a stored user. */
  function EnrollTarget(users: seq<User>, userId: Option<Json>): (r: Option<User>)
    ensures r.Some? ==> r.value in users && userId == Some(JStr(r.value.id))
    ensures userId.Some? && userId.value.JStr? && (exists j :: 0 <= j < |users| && users[j].id == userId.value.s) ==> r.Some?
  {
    match userId
    case Some(JStr(id)) =>
      (match FindUserIndex(users, id)
       case None => None
       case Some(i) => Some(users[i]))
    case _ => None
  }

  /** Whether the effects are a broadcast of `text`: that text to every open session and
      to no one else, with nothing besides. */
  ghost predicate IsBroadcastOf(reg: Sessions, effs: seq<Effect>, text: string) {
    && (forall k :: 0 <= k < |effs| ==> effs[k].Send? && effs[k].text == text)
    && (forall x :: Send(x, text) in effs <==> IsOpen(reg, x))
  }

  /** A broadcast is what it claims to be, and reaches open sessions only. */
  lemma BroadcastIsBroadcast(reg: Sessions, text: string)
    ensures IsBroadcastOf(reg, Broadcast(reg, text), text)
    ensures SendsToOpen(reg, Broadcast(reg, text))
  {
    var b := Broadcast(reg, text);
    forall k | 0 <= k < |b| ensures IsOpen(reg, b[k].to) {
      assert Send(b[k].to, text) in b;
    }
  }

  /** `PUT /enroll`: 400 without a user id, 404 for an unknown user; otherwise the scan
      command goes to every open session and the request waits, unanswered for now,
      under the user's slot, replacing any request already waiting there, which is then
      never answered. */
  function OnEnroll(s: State, req: nat, userId: Option<Json>): (r: (State, seq<Effect>))
    ensures ConnectionsUnchanged(s, r.0) && r.0.devices == s.devices && r.0.users == s.users && r.0.log == s.log
    ensures SendsToOpen(s.sessions, r.1)
    ensures forall k :: 0 <= k < |r.1| && r.1[k].Reply? ==> r.1[k].request == req
    ensures !Truthy(userId) ==> r.0 == s && r.1 == [Reply(req, 400, None, "user ID is required")]
    ensures Truthy(userId) && EnrollTarget(s.users, userId).None? ==>
              r.0 == s && r.1 == [Reply(req, 404, None, "Student not found")]
    ensures Truthy(userId) && EnrollTarget(s.users, userId).Some? ==>
              var u := EnrollTarget(s.users, userId).value;
              && r.0.pending.Keys == s.pending.Keys + {u.biometricId}
              && r.0.pending[u.biometricId] == Waiter(req, u.id)
              && (forall k :: k in s.pending && k != u.biometricId ==> r.0.pending[k] == s.pending[k])
              && IsBroadcastOf(s.sessions, r.1, ScanCommand(u.biometricId))
  {
    if !Truthy(userId) then (s, [Reply(req, 400, None, "user ID is required")])
    else
      match EnrollTarget(s.users, userId)
      case None => (s, [Reply(req, 404, None, "Student not found")])
      case Some(u) =>
        BroadcastIsBroadcast(s.sessions, ScanCommand(u.biometricId));
        (s.(pending := Await(s.pending, u.biometricId, Waiter(req, u.id)).0),
         Broadcast(s.sessions, ScanCommand(u.biometricId)))
  }

  /** The lock state a door command asks for. */
  function DoorCommand(action: Option<Json>): (r: Option<LockState>)
    ensures r == Some(Unlocked) <==> action == Some(JStr("unlock"))
    ensures r == Some(Locked) <==> action == Some(JStr("lock"))
  {
    if action == Some(JStr("unlock")) then Some(Unlocked)
    else if action == Some(JStr("lock")) then Some(Locked)
    else None
  }

  /** `PUT /door-control`: 400 without an action, 404 without the device record; `unlock`
      and `lock` write the lock state, send the command to every open session of
      either type and succeed; any other action is refused with 400 and changes
      nothing. Every outcome answers the request once, last. */
  function OnDoorControl(cfg: Config, s: State, req: nat, action: Option<Json>): (r: (State, seq<Effect>))
    ensures ConnectionsUnchanged(s, r.0) && r.0.pending == s.pending && r.0.users == s.users && r.0.log == s.log
    ensures AnswersOnceLast(r.1, req) && SendsToOpen(s.sessions, r.1)
    ensures !Truthy(action) ==> r == (s, [Reply(req, 400, None, "Action is required")])
    ensures Truthy(action) && cfg.deviceId !in s.devices ==>
              r == (s, [Reply(req, DeviceNotFound.status, None, DeviceNotFound.message)])
    ensures Truthy(action) && cfg.deviceId in s.devices && DoorCommand(action).Some? ==>
              && LockWritten(s.devices, r.0.devices, cfg.deviceId, DoorCommand(action).value)
              && r.0.devices[cfg.deviceId].lockState == DoorCommand(action).value
              && IsBroadcastOf(s.sessions, r.1[..|r.1| - 1], action.value.s)
              && r.1[|r.1| - 1] == Reply(req, 200, Some(true),
                                         if action == Some(JStr("unlock")) then "Door unlocked" else "Door locked")
    ensures Truthy(action) && cfg.deviceId in s.devices && DoorCommand(action).None? ==>
              r == (s, [Reply(req, 400, Some(false), "Invalid action")])
    ensures r.0.devices != s.devices ==> DoorCommand(action).Some?
  {
    if !Truthy(action) then (s, [Reply(req, 400, None, "Action is required")])
    else if cfg.deviceId !in s.devices then (s, [Reply(req, DeviceNotFound.status, None, DeviceNotFound.message)])
    else if action == Some(JStr("unlock")) then
      var b := Broadcast(s.sessions, "unlock");
      BroadcastIsBroadcast(s.sessions, "unlock");
      var effs := b + [Reply(req, 200, Some(true), "Door unlocked")];
      assert effs[..|effs| - 1] == b;
      (s.(devices := SetLock(s.devices, cfg.deviceId, Unlocked)), effs)
    else if action == Some(JStr("lock")) then
      var b := Broadcast(s.sessions, "lock");
      BroadcastIsBroadcast(s.sessions, "lock");
      var effs := b + [Reply(req, 200, Some(true), "Door locked")];
      assert effs[..|effs| - 1] == b;
      (s.(devices := SetLock(s.devices, cfg.deviceId, Locked)), effs)
    else (s, [Reply(req, 400, Some(false), "Invalid action")])
  }

  /** `POST /user/register` as the handler evidently intends: on success the new user is
      stored with a slot of its own, the new-credential command goes to every open
      session, and the request gets 201; a refused registration stores nothing. */
  function OnRegister(cfg: Config, s: State, req: nat, body: UserRoutes.RegisterBody, newId: UserId)
    : (r: (State, seq<Effect>))
    ensures ConnectionsUnchanged(s, r.0) && r.0.pending == s.pending && r.0.devices == s.devices && r.0.log == s.log
    ensures AnswersOnceLast(r.1, req) && SendsToOpen(s.sessions, r.1)
    ensures UserRoutes.Register(s.users, cfg.deviceId, body, newId).Err? ==>
              var e := UserRoutes.Register(s.users, cfg.deviceId, body, newId).error;
              r == (s, [Reply(req, e.status, None, e.message)])
    ensures UserRoutes.Register(s.users, cfg.deviceId, body, newId).Ok? ==>
              var u := UserRoutes.Register(s.users, cfg.deviceId, body, newId).value.1;
              && r.0.users == s.users + [u]
              && (forall j :: 0 <= j < |s.users| ==> s.users[j].biometricId != u.biometricId)
              && IsBroadcastOf(s.sessions, r.1[..|r.1| - 1], AddUserCommand(u.biometricId, u.pin))
              && r.1[|r.1| - 1] == Reply(req, 201, None, "User created successfully")
  {
    match UserRoutes.Register(s.users, cfg.deviceId, body, newId)
    case Err(e) => (s, [Reply(req, e.status, None, e.message)])
    case Ok((users', u)) =>
      var b := Broadcast(s.sessions, AddUserCommand(u.biometricId, u.pin));
      BroadcastIsBroadcast(s.sessions, AddUserCommand(u.biometricId, u.pin));
      var effs := b + [Reply(req, 201, None, "User created successfully")];
      assert effs[..|effs| - 1] == b;
      (s.(users := users'), effs)
  }

  /** `POST /user/register` as written: the route reads a `wss` the server module never
      exports, so once the user is stored the broadcast throws, nothing is sent, and
      the request is answered 500. The slot is the user count plus one. */
  function OnRegisterAsWritten(cfg: Config, s: State, req: nat, body: UserRoutes.RegisterBody, newId: UserId)
    : (r: (State, seq<Effect>))
    ensures ConnectionsUnchanged(s, r.0) && r.0.pending == s.pending && r.0.devices == s.devices && r.0.log == s.log
    ensures AnswersOnceLast(r.1, req) && |r.1| == 1
    ensures UserRoutes.RegisterAsWritten(s.users, cfg.deviceId, body, newId).Err? ==>
              var e := UserRoutes.RegisterAsWritten(s.users, cfg.deviceId, body, newId).error;
              r == (s, [Reply(req, e.status, None, e.message)])
    ensures UserRoutes.RegisterAsWritten(s.users, cfg.deviceId, body, newId).Ok? ==>
              && r.0.users == UserRoutes.RegisterAsWritten(s.users, cfg.deviceId, body, newId).value.0
              && |r.0.users| == |s.users| + 1
              && r.1 == [Reply(req, ServerError.status, None, ServerError.message)]
  {
    match UserRoutes.RegisterAsWritten(s.users, cfg.deviceId, body, newId)
    case Err(e) => (s, [Reply(req, e.status, None, e.message)])
    case Ok((users', _)) => (s.(users := users'), [Reply(req, ServerError.status, None, ServerError.message)])
  }

  /** Where the two slot rules agree, a registration the handler accepts stores the same
      user either way, but as written the client is told 500 and no session hears of
      the new credential, while the intended handler sends it and answers 201. */
  lemma RegisterAsWrittenStoresButFails(cfg: Config, s: State, req: nat, body: UserRoutes.RegisterBody, newId: UserId)
    requires forall j :: 0 <= j < |s.users| ==> s.users[j].biometricId != Some(|s.users| + 1)
    requires UserRoutes.RegisterAsWritten(s.users, cfg.deviceId, body, newId).Ok?
    ensures OnRegisterAsWritten(cfg, s, req, body, newId).0 == OnRegister(cfg, s, req, body, newId).0
    ensures OnRegisterAsWritten(cfg, s, req, body, newId).1 == [Reply(req, 500, None, "Something went wrong")]
    ensures var effs := OnRegister(cfg, s, req, body, newId).1;
            effs[|effs| - 1] == Reply(req, 201, None, "User created successfully")
  {
    UserRoutes.RegisterAgreesWhileCountSlotFree(s.users, cfg.deviceId, body, newId);
  }

  /** The request an event's replies may answer: the event's own request, or the one
      waiting in the enrollment table for an acknowledged slot. */
  predicate MayAnswer(s: State, e: Event, req: nat) {
    || (e.EnrollRequest? && req == e.request)
    || (e.DoorControlRequest? && req == e.request)
    || (e.RegisterRequest? && req == e.request)
    || (e.Message? && e.msg.EnrollAck? && e.msg.fingerprintId in s.pending
        && req == s.pending[e.msg.fingerprintId].request)
  }

  /** One atomic step of the hub. Texts only ever go to open sessions, and a reply only
      ever answers the request that caused the step or the one waiting on an
      acknowledged slot. */
  function Step(cfg: Config, s: State, e: Event): (r: (State, seq<Effect>))
    ensures SendsToOpen(s.sessions, r.1)
    ensures forall k :: 0 <= k < |r.1| && r.1[k].Reply? ==> MayAnswer(s, e, r.1[k].request)
  {
    match e
    case Connect(clientType) => OnConnect(s, clientType)
    case Closing(sid) => OnClosing(s, sid)
    case Close(sid) => OnClose(s, sid)
    case Message(sid, msg) => OnMessage(cfg, s, sid, msg)
    case EnrollRequest(req, userId) => OnEnroll(s, req, userId)
    case DoorControlRequest(req, action) => OnDoorControl(cfg, s, req, action)
    case RegisterRequest(req, body, newId) => OnRegister(cfg, s, req, body, newId)
  }
}

=== FILE: hub_properties.dfy ===
/** Properties of the hub that hold across events and across steps: the invariant every
    step keeps, which events may touch which part of the state, the append-only
    access log, and the enrollment handshake between an HTTP request and the
    device's acknowledgement. */
module HubProperties {
  import opened Base
  import opened Models
  import opened Registry
  import opened Pending
  import UserRoutes
  import opened Hub

  lemma ConnectPreservesValid(s: State, clientType: Option<string>)
    requires Valid(s)
    ensures Valid(OnConnect(s, clientType).0)
  {
    var t := OnConnect(s, clientType).0;
    assert forall i :: 0 <= i < |s.sessions| ==> t.sessions[i] == s.sessions[i];
    if t.hardwareActive {
      if Classify(clientType) == Esp32 {
        assert t.sessions[|s.sessions|].kind == Esp32;
      } else {
        var i :| 0 <= i < |s.sessions| && s.sessions[i].kind == Esp32;
        assert t.sessions[i] == s.sessions[i];
      }
    }
  }

  lemma ClosePreservesValid(s: State, sid: nat)
    requires Valid(s)
    ensures Valid(OnClose(s, sid).0)
  {
    var t := OnClose(s, sid).0;
    UnregisterRemovesOne(s.sessions, sid);
    forall i | 0 <= i < |t.sessions|
      ensures t.sessions[i].id < t.nextSession
    {
      assert t.sessions[i] in s.sessions;
    }
    if t.hardwareActive {
      var i :| 0 <= i < |s.sessions| && s.sessions[i].kind == Esp32;
      LookupUnique(s.sessions, i);
      assert s.sessions[i] in t.sessions;
    }
  }

  lemma ClosingPreservesValid(s: State, sid: nat)
    requires Valid(s)
    ensures Valid(OnClosing(s, sid).0)
  {
    var t := OnClosing(s, sid).0;
    if t.hardwareActive {
      var i :| 0 <= i < |s.sessions| && s.sessions[i].kind == Esp32;
      assert t.sessions[i].kind == Esp32;
    }
  }

  /** Marking one user enrolled changes neither ids nor slots. */
  lemma EnrolledKeepsUsersValid(users: seq<User>, i: nat)
    requires i < |users| && UserIdsUnique(users) && UserRoutes.SlotsUnique(users)
    ensures UserIdsUnique(users[i := users[i].(biometricEnrolled := true)])
    ensures UserRoutes.SlotsUnique(users[i := users[i].(biometricEnrolled := true)])
  {
    var u := users[i := users[i].(biometricEnrolled := true)];
    assert forall j :: 0 <= j < |users| ==> u[j].id == users[j].id && u[j].biometricId == users[j].biometricId;
  }

  lemma MessagePreservesValid(cfg: Config, s: State, sid: nat, msg: SocketMessage)
    requires Valid(s)
    ensures Valid(OnMessage(cfg, s, sid, msg).0)
  {
    if Registered(s.sessions, sid) && msg.EnrollAck? && msg.fingerprintId in s.pending && msg.success {
      var w := s.pending[msg.fingerprintId];
      if FindUserIndex(s.users, w.user).Some? {
        EnrolledKeepsUsersValid(s.users, FindUserIndex(s.users, w.user).value);
      }
    }
  }

  lemma RegisterPreservesValid(cfg: Config, s: State, req: nat, body: UserRoutes.RegisterBody, newId: UserId)
    requires Valid(s)
    ensures Valid(OnRegister(cfg, s, req, body, newId).0)
  {
    var r := UserRoutes.Register(s.users, cfg.deviceId, body, newId);
    assert r == UserRoutes.RegisterWith(s.users, cfg.deviceId, body, newId, UserRoutes.NextSlot(s.users));
  }

  /** The hub as the server starts it (no sessions, the flag clear, nothing pending) is
      consistent over any stored records that are themselves consistent, the empty
      store included. */
  lemma InitValid(devices: DeviceStore, users: seq<User>, log: seq<AccessLog>)
    requires KeyedById(devices) && UserIdsUnique(users) && UserRoutes.SlotsUnique(users)
    ensures Valid(State([], 0, false, map[], devices, users, log))
    ensures Valid(State([], 0, false, map[], map[], [], []))
  {
  }

  /** Every step of the hub keeps its invariant. */
  lemma StepPreservesValid(cfg: Config, s: State, e: Event)
    requires Valid(s)
    ensures Valid(Step(cfg, s, e).0)
  {
    match e
    case Connect(clientType) => ConnectPreservesValid(s, clientType);
    case Closing(sid) => ClosingPreservesValid(s, sid);
    case Close(sid) => ClosePreservesValid(s, sid);
    case Message(sid, msg) => MessagePreservesValid(cfg, s, sid, msg);
    case EnrollRequest(req, userId) =>
    case DoorControlRequest(req, action) =>
    case RegisterRequest(req, body, newId) => RegisterPreservesValid(cfg, s, req, body, newId);
  }

  /** A reported unlock logs one successful entry attributed to its actor, when the
      report names a source. */
  lemma UnlockedLogsOneSuccess(cfg: Config, s: State, sid: nat, source: Option<string>, id: Option<int>)
    requires Registered(s.sessions, sid)
    ensures var r := OnMessage(cfg, s, sid, UnlockedReport(source, id));
            && r.0.log == s.log + Appended(r.1)
            && Appended(r.1) == if RequiredString(source)
                                then [AccessLog(UnlockActor(s.users, source, id), source.value, true, Some("door unlocked"))]
                                else []
  {
    var send := SendFirst(s.sessions, Web, "unlocked");
    var entry := EventEntry(UnlockActor(s.users, source, id), source, true, "door unlocked");
    AppendedConcat(send, entry);
    AppendedNone(send);
    assert Appended(entry) == if |entry| == 1 then [entry[0].entry] else [];
  }

  /** A reported failure logs one unsuccessful, anonymous entry, when the report names
      a source; the lock state is untouched. */
  lemma FailedLogsOneFailure(cfg: Config, s: State, sid: nat, source: Option<string>)
    requires Registered(s.sessions, sid)
    ensures var r := OnMessage(cfg, s, sid, FailedReport(source));
            && r.0.log == s.log + Appended(r.1)
            && r.0.devices == s.devices
            && Appended(r.1) == if RequiredString(source)
                                then [AccessLog(None, source.value, false, Some("failed attempt"))]
                                else []
  {
    var entry := EventEntry(None, source, false, "failed attempt");
    assert Appended(entry) == if |entry| == 1 then [entry[0].entry] else [];
  }

  /** A reported lock writes the lock state but logs nothing. */
  lemma LockedLogsNothing(cfg: Config, s: State, sid: nat)
    requires Registered(s.sessions, sid)
    ensures var r := OnMessage(cfg, s, sid, LockedReport);
            r.0.log == s.log && Appended(r.1) == []
  {
    AppendedNone(SendFirst(s.sessions, Web, "locked"));
  }

  lemma MessageAppendsToLog(cfg: Config, s: State, sid: nat, msg: SocketMessage)
    ensures OnMessage(cfg, s, sid, msg).0.log == s.log + Appended(OnMessage(cfg, s, sid, msg).1)
    ensures Appended(OnMessage(cfg, s, sid, msg).1) != [] ==>
              Registered(s.sessions, sid) && (msg.UnlockedReport? || msg.FailedReport?)
  {
    if Registered(s.sessions, sid) {
      match msg
      case CheckHardwareStatus => AppendedNone(OnCheckHardwareStatus(s, sid).1);
      case EnrollAck(slot, success) => AppendedNone(OnEnrollAck(s, slot, success).1);
      case UnlockedReport(source, id) => UnlockedLogsOneSuccess(cfg, s, sid, source, id);
      case LockedReport => LockedLogsNothing(cfg, s, sid);
      case FailedReport(source) => FailedLogsOneFailure(cfg, s, sid, source);
      case OtherAction =>
    }
  }

  /** The access log only grows, by exactly the entries the step's effects report, and
      only reported unlocks and reported failures from registered sockets add any. */
  lemma StepAppendsToLog(cfg: Config, s: State, e: Event)
    ensures Step(cfg, s, e).0.log == s.log + Appended(Step(cfg, s, e).1)
    ensures Appended(Step(cfg, s, e).1) != [] ==>
              e.Message? && Registered(s.sessions, e.session) && (e.msg.UnlockedReport? || e.msg.FailedReport?)
  {
    match e
    case Connect(_) =>
    case Closing(_) =>
    case Close(_) =>
    case Message(sid, msg) => MessageAppendsToLog(cfg, s, sid, msg);
    case EnrollRequest(req, userId) => AppendedNone(OnEnroll(s, req, userId).1);
    case DoorControlRequest(req, action) => AppendedNone(OnDoorControl(cfg, s, req, action).1);
    case RegisterRequest(req, body, newId) => AppendedNone(OnRegister(cfg, s, req, body, newId).1);
  }

  /** A step leaves the device collection alone or writes one lock state into it, and
      only the three lock events write. */
  lemma StepDevicesCases(cfg: Config, s: State, e: Event)
    ensures var d := Step(cfg, s, e).0.devices;
            || d == s.devices
            || (((e.Message? && (e.msg.UnlockedReport? || e.msg.LockedReport?)) || e.DoorControlRequest?)
                && (d == SetLock(s.devices, cfg.deviceId, Locked) || d == SetLock(s.devices, cfg.deviceId, Unlocked)))
  {
    match e
    case Message(sid, msg) =>
      if !Registered(s.sessions, sid) {
        assert Step(cfg, s, e).0.devices == s.devices;
      } else {
        match msg
        case UnlockedReport(source, id) =>
          assert Step(cfg, s, e).0.devices == SetLock(s.devices, cfg.deviceId, Unlocked);
        case LockedReport =>
          assert Step(cfg, s, e).0.devices == SetLock(s.devices, cfg.deviceId, Locked);
        case CheckHardwareStatus =>
        case EnrollAck(_, _) =>
        case FailedReport(_) =>
        case OtherAction =>
      }
    case DoorControlRequest(req, action) =>
    case Connect(_) =>
    case Closing(_) =>
    case Close(_) =>
    case EnrollRequest(_, _) =>
    case RegisterRequest(_, _, _) =>
  }

  /** Only a reported unlock, a reported lock and the door-control route write the
      device collection; they never create or remove a record, and they change
      nothing but the configured device's lock state. */
  lemma OnlyLockEventsWriteDevices(cfg: Config, s: State, e: Event)
    ensures Step(cfg, s, e).0.devices.Keys == s.devices.Keys
    ensures forall k :: k in s.devices ==>
              Step(cfg, s, e).0.devices[k] == s.devices[k].(lockState := Step(cfg, s, e).0.devices[k].lockState)
    ensures forall k :: k in s.devices && k != cfg.deviceId ==> Step(cfg, s, e).0.devices[k] == s.devices[k]
    ensures Step(cfg, s, e).0.devices != s.devices ==>
              (e.Message? && (e.msg.UnlockedReport? || e.msg.LockedReport?)) || e.DoorControlRequest?
  {
    StepDevicesCases(cfg, s, e);
  }

  /** HTTP requests and socket messages never change the connection registry or the
      hardware flag; only connecting and closing do. */
  lemma OnlyConnectionEventsChangeSessions(cfg: Config, s: State, e: Event)
    requires !e.Connect? && !e.Closing? && !e.Close?
    ensures Step(cfg, s, e).0.sessions == s.sessions
    ensures Step(cfg, s, e).0.nextSession == s.nextSession
    ensures Step(cfg, s, e).0.hardwareActive == s.hardwareActive
  {
  }

  /** A message with an action the hub does not know changes nothing and sends nothing. */
  lemma UnknownActionChangesNothing(cfg: Config, s: State, sid: nat)
    ensures Step(cfg, s, Message(sid, OtherAction)) == (s, [])
  {
  }

  /** An acknowledgement is acted on at most once: a repeated acknowledgement for the
      same slot, with either outcome, does nothing at all. */
  lemma AckAnsweredOnce(cfg: Config, s: State, sid: nat, slot: Slot, first: bool, again: bool)
    requires Registered(s.sessions, sid)
    ensures var t := Step(cfg, s, Message(sid, EnrollAck(slot, first))).0;
            Step(cfg, t, Message(sid, EnrollAck(slot, again))) == (t, [])
  {
  }

  /** The enrollment handshake: after `/enroll` for a known user, the device's
      acknowledgement for that user's slot answers exactly that request, with 200 and
      the user marked enrolled on success and 500 otherwise, and the slot is free
      again. */
  lemma EnrollThenAck(cfg: Config, s: State, req: nat, id: UserId, sid: nat, success: bool)
    requires id != "" && Registered(s.sessions, sid)
    requires EnrollTarget(s.users, Some(JStr(id))).Some?
    ensures var u := EnrollTarget(s.users, Some(JStr(id))).value;
            var t := Step(cfg, s, EnrollRequest(req, Some(JStr(id)))).0;
            var r := Step(cfg, t, Message(sid, EnrollAck(u.biometricId, success)));
            && r.1 == [if success then Reply(req, 200, Some(true), "Enrollment successful")
                       else Reply(req, 500, Some(false), "Enrollment failed")]
            && r.0.pending == s.pending - {u.biometricId}
            && (success ==> exists i :: 0 <= i < |r.0.users| && r.0.users[i].id == id && r.0.users[i].biometricEnrolled)
            && (!success ==> r.0.users == s.users)
  {
    var u := EnrollTarget(s.users, Some(JStr(id))).value;
    var t := OnEnroll(s, req, Some(JStr(id))).0;
    assert Step(cfg, s, EnrollRequest(req, Some(JStr(id)))).0 == t;
    assert t.pending[u.biometricId] == Waiter(req, id);
    assert t.pending - {u.biometricId} == s.pending - {u.biometricId};
    assert t.users == s.users && t.sessions == s.sessions;
    var i := FindUserIndex(s.users, id).value;
    assert FindUserIndex(t.users, u.id) == Some(i);
    var r := OnEnrollAck(t, u.biometricId, success);
    assert Step(cfg, t, Message(sid, EnrollAck(u.biometricId, success))) == r;
    if success {
      assert r.0.users == s.users[i := s.users[i].(biometricEnrolled := true)];
      assert r.0.users[i].id == id && r.0.users[i].biometricEnrolled;
    }
  }

  /** A second `/enroll` for the same slot replaces the first waiting request: only the
      later request can ever be answered. */
  lemma EnrollSupersedes(cfg: Config, s: State, req1: nat, req2: nat, id: UserId)
    requires id != "" && EnrollTarget(s.users, Some(JStr(id))).Some?
    ensures var u := EnrollTarget(s.users, Some(JStr(id))).value;
            var t := Step(cfg, Step(cfg, s, EnrollRequest(req1, Some(JStr(id)))).0, EnrollRequest(req2, Some(JStr(id)))).0;
            t.pending[u.biometricId] == Waiter(req2, id)
  {
  }

  /** A hardware report of an unlock reaches at most one dashboard, the first open one
      in connection order; with no dashboard open it reaches nobody. */
  lemma UnlockedReachesFirstDashboard(cfg: Config, s: State, sid: nat, source: Option<string>, id: Option<int>)
    requires Registered(s.sessions, sid)
    ensures var effs := Step(cfg, s, Message(sid, UnlockedReport(source, id))).1;
            && (forall k :: 0 <= k < |effs| && effs[k].Send? ==>
                  effs[k].text == "unlocked" && FirstOpen(s.sessions, Web) == Some(effs[k].to))
            && (FirstOpen(s.sessions, Web).None? ==> forall k :: 0 <= k < |effs| ==> !effs[k].Send?)
  {
  }

  /** A door command from the HTTP route reaches every open session of either type. */
  lemma DoorCommandReachesEveryone(cfg: Config, s: State, req: nat, cmd: string, x: nat)
    requires cmd == "unlock" || cmd == "lock"
    requires cfg.deviceId in s.devices
    requires exists i :: 0 <= i < |s.sessions| && s.sessions[i].open && s.sessions[i].id == x
    ensures Send(x, cmd) in Step(cfg, s, DoorControlRequest(req, Some(JStr(cmd)))).1
  {
    var b := Broadcast(s.sessions, cmd);
    assert Send(x, cmd) in b;
  }

  /** Two hardware controllers and a dashboard, all connected. */
  function TwoControllers(): (s: State)
    ensures Valid(s) && s.hardwareActive
  {
    var reg := [Session(0, Esp32, true), Session(1, Esp32, true), Session(2, Web, true)];
    assert reg[0].kind == Esp32;
    State(reg, 3, true, map[], map[], [], [])
  }

  /** Closing the first controller leaves the second controller and the dashboard. */
  lemma CloseFirstController()
    ensures Unregister(TwoControllers().sessions, 0) == [Session(1, Esp32, true), Session(2, Web, true)]
  {
    var b, c := Session(1, Esp32, true), Session(2, Web, true);
    var reg := TwoControllers().sessions;
    assert reg[1..] == [b, c] && [b, c][1..] == [c] && [c][1..] == [];
    assert Unregister([], 0) == [];
    assert Unregister([c], 0) == [c];
    assert Unregister([b, c], 0) == [b, c];
  }

  /** The hardware flag is sound but not complete: it is set only while a hardware
      session is registered, yet closing one of two hardware sessions clears it while
      the other stays connected, and a dashboard asking is then told there is none. */
  lemma HardwareFlagClearedByAnyClose()
    ensures var t := OnClose(TwoControllers(), 0).0;
            && HasEsp32(t.sessions) && !t.hardwareActive
            && OnCheckHardwareStatus(t, 2).1 == [Send(2, HardwareStatusText(false))]
  {
    var s := TwoControllers();
    LookupUnique(s.sessions, 0);
    CloseFirstController();
    var t := OnClose(s, 0).0;
    assert !t.hardwareActive;
    assert t.sessions[0].kind == Esp32;
    assert IdsUnique(t.sessions);
    LookupUnique(t.sessions, 1);
    assert Lookup(t.sessions, 2) == Some(Session(2, Web, true));
  }
}

=== FILE: models.dfy ===
/** The stored records: the device status document, the access-log document and the
    user record the routes work with, together with the schema rules (required
    fields, enumerations, defaults, uniqueness) that creating a document enforces. */
module Models {
  import opened Base

  datatype LockState = Locked | Unlocked

  function LockStateName(s: LockState): string {
    match s
    case Locked => "locked"
    case Unlocked => "unlocked"
  }

  /** The `enum: ['locked', 'unlocked']` validator. */
  function ParseLockState(t: string): (r: Option<LockState>)
    ensures r.Some? <==> t == "locked" || t == "unlocked"
    ensures r.Some? ==> LockStateName(r.value) == t
  {
    if t == "locked" then Some(Locked)
    else if t == "unlocked" then Some(Unlocked)
    else None
  }

  lemma LockStateNameRoundTrip(s: LockState)
    ensures ParseLockState(LockStateName(s)) == Some(s)
  {
  }

  /** A device status document (timestamps left out). */
  datatype Device = Device(deviceId: string, lockState: LockState, batteryLevel: real, wifiStatus: bool)

  /** The fields given when a device document is created; `None` is an absent field. */
  datatype DeviceFields = DeviceFields(
    deviceId: Option<string>,
    lockState: Option<string>,
    batteryLevel: Option<real>,
    wifiStatus: Option<bool>)

  datatype SchemaError =
    | RequiredMissing(field: string)
    | NotInEnum(field: string)
    | DuplicateKey(field: string)

  /** A required string path rejects an absent value and the empty string. */
  predicate RequiredString(v: Option<string>) {
    v.Some? && v.value != ""
  }

  const DefaultBatteryLevel: real := 100.0

  /** Validates the fields of a new device document and fills in the defaults. */
  function NewDevice(f: DeviceFields): (r: Result<Device, SchemaError>)
    ensures r.Ok? <==> RequiredString(f.deviceId) && (f.lockState.Some? ==> ParseLockState(f.lockState.value).Some?)
    ensures !RequiredString(f.deviceId) ==> r == Err(RequiredMissing("deviceId"))
    ensures r.Ok? ==> r.value.deviceId == f.deviceId.value
    ensures r.Ok? ==> r.value.lockState == (if f.lockState.None? then Locked else ParseLockState(f.lockState.value).value)
    ensures r.Ok? ==> r.value.batteryLevel == (if f.batteryLevel.None? then DefaultBatteryLevel else f.batteryLevel.value)
    ensures r.Ok? ==> r.value.wifiStatus == (f.wifiStatus.None? || f.wifiStatus.value)
  {
    if !RequiredString(f.deviceId) then Err(RequiredMissing("deviceId"))
    else
      var lock := if f.lockState.None? then Some(Locked) else ParseLockState(f.lockState.value);
      if lock.None? then Err(NotInEnum("lockState"))
      else
        Ok(Device(
          f.deviceId.value,
          lock.value,
          if f.batteryLevel.None? then DefaultBatteryLevel else f.batteryLevel.value,
          if f.wifiStatus.None? then true else f.wifiStatus.value))
  }

  /** The answer of every route that needs the configured device and finds no document. */
  const DeviceNotFound := HttpError(404, "Device not found")

  /** The device collection, keyed by `deviceId`. */
  type DeviceStore = map<string, Device>

  predicate KeyedById(store: DeviceStore) {
    forall k :: k in store ==> store[k].deviceId == k
  }

  /** Creating a device document: validation first, then the unique index on `deviceId`. */
  function InsertDevice(store: DeviceStore, f: DeviceFields): (r: Result<DeviceStore, SchemaError>)
    ensures r.Err? && r.error.DuplicateKey? <==> NewDevice(f).Ok? && f.deviceId.value in store
    ensures r.Ok? ==> NewDevice(f).Ok? && f.deviceId.value !in store
    ensures r.Ok? ==> r.value.Keys == store.Keys + {f.deviceId.value}
    ensures r.Ok? ==> forall k :: k in store ==> r.value[k] == store[k]
    ensures r.Ok? && KeyedById(store) ==> KeyedById(r.value)
  {
    match NewDevice(f)
    case Err(e) => Err(e)
    case Ok(d) =>
      if d.deviceId in store then Err(DuplicateKey("deviceId"))
      else Ok(store[d.deviceId := d])
  }

  /** After an accepted insert no two records share a `deviceId`. */
  lemma InsertKeepsDeviceIdsUnique(store: DeviceStore, f: DeviceFields, a: string, b: string)
    requires KeyedById(store)
    requires InsertDevice(store, f).Ok?
    requires a in InsertDevice(store, f).value && b in InsertDevice(store, f).value
    requires InsertDevice(store, f).value[a].deviceId == InsertDevice(store, f).value[b].deviceId
    ensures a == b
  {
  }

  type UserId = string

  datatype Role = Admin | Student | Lecturer

  /** The role a new user record gets when none is given. */
  const DefaultRole: Role := Lecturer

  /** A user record with the fields the routes read and write; `password` is the stored
      (hashed) credential, absent for users created by registration. */
  datatype User = User(
    id: UserId,
    email: string,
    fullName: string,
    pin: string,
    deviceId: string,
    role: Role,
    password: Option<string>,
    biometricId: Option<int>,
    biometricEnrolled: bool)

  predicate UserIdsUnique(users: seq<User>) {
    forall i, j :: 0 <= i < j < |users| ==> users[i].id != users[j].id
  }

  /** `findById`: the position of the user with the given id. */
  function FindUserIndex(users: seq<User>, id: UserId): (r: Option<nat>)
    ensures r.Some? ==> r.value < |users| && users[r.value].id == id
    ensures r.None? <==> forall j :: 0 <= j < |users| ==> users[j].id != id
  {
    FindFirst(users, (u: User) => u.id == id)
  }

  /** `findOne({ biometricId: n })`: the first user enrolled under slot `n`. */
  function FindByBiometric(users: seq<User>, n: int): (r: Option<User>)
    ensures r.Some? ==> r.value in users && r.value.biometricId == Some(n)
    ensures r.None? <==> forall j :: 0 <= j < |users| ==> users[j].biometricId != Some(n)
  {
    FirstMatch(users, (u: User) => u.biometricId == Some(n))
  }

  /** An access-log document (timestamps left out). */
  datatype AccessLog = AccessLog(user: Option<UserId>, accessMethod: string, success: bool, action: Option<string>)

  /** The fields given when an access-log document is created. */
  datatype AccessLogFields = AccessLogFields(
    user: Option<UserId>,
    accessMethod: Option<string>,
    success: Option<bool>,
    action: Option<string>)

  /** Validates a new access-log document: `accessMethod` is required, `success`
      defaults to false, `user` and `action` are optional and kept as given. */
  function NewAccessLog(f: AccessLogFields): (r: Result<AccessLog, SchemaError>)
    ensures r.Ok? <==> RequiredString(f.accessMethod)
    ensures r.Err? ==> r.error == RequiredMissing("accessMethod")
    ensures r.Ok? ==> r.value.accessMethod == f.accessMethod.value
    ensures r.Ok? ==> r.value.success == (f.success == Some(true))
    ensures r.Ok? ==> r.value.user == f.user && r.value.action == f.action
  {
    if !RequiredString(f.accessMethod) then Err(RequiredMissing("accessMethod"))
    else Ok(AccessLog(f.user, f.accessMethod.value, if f.success.None? then false else f.success.value, f.action))
  }
}

=== FILE: pending.dfy ===
/** The pending-enrollment table: a fingerprint slot maps to the HTTP request waiting
    for the device's acknowledgement. The key is the user's `biometricId`, which is
    `undefined` (here `None`) for a user that never got one. */
module Pending {
  import opened Base
  import opened Models

  type Slot = Option<int>

  /** The waiting `/enroll` request and the user it enrolls; the stored callback
      closes over exactly these two. */
  datatype Waiter = Waiter(request: nat, user: UserId)

  type Table = map<Slot, Waiter>

  /** `pendingEnrollments.set(slot, callback)`: stores the waiter, silently replacing
      (and so losing) any waiter already stored under the slot, which is returned. */
  function Await(t: Table, slot: Slot, w: Waiter): (r: (Table, Option<Waiter>))
    ensures slot in r.0 && r.0[slot] == w
    ensures r.0.Keys == t.Keys + {slot}
    ensures forall k :: k in t && k != slot ==> r.0[k] == t[k]
    ensures r.1.Some? <==> slot in t
    ensures r.1.Some? ==> r.1.value == t[slot]
  {
    (t[slot := w], if slot in t then Some(t[slot]) else None)
  }

  /** An acknowledgement: takes the waiter for the slot out of the table; an unknown
      slot leaves the table as it is. */
  function Resolve(t: Table, slot: Slot): (r: (Option<Waiter>, Table))
    ensures r.0.Some? <==> slot in t
    ensures r.0.Some? ==> r.0.value == t[slot]
    ensures r.1.Keys == t.Keys - {slot}
    ensures forall k :: k in r.1 ==> r.1[k] == t[k]
    ensures slot !in t ==> r.1 == t
  {
    if slot in t then (Some(t[slot]), t - {slot}) else (None, t)
  }

  /** A waiter is handed out at most once: resolving the same slot again finds nothing. */
  lemma ResolveAtMostOnce(t: Table, slot: Slot)
    ensures Resolve(Resolve(t, slot).1, slot).0 == None
    ensures Resolve(Resolve(t, slot).1, slot).1 == Resolve(t, slot).1
  {
  }

  /** Storing a waiter and then acknowledging its slot hands back that very waiter and
      leaves the other slots as they were. */
  lemma AwaitThenResolve(t: Table, slot: Slot, w: Waiter)
    ensures Resolve(Await(t, slot, w).0, slot).0 == Some(w)
    ensures Resolve(Await(t, slot, w).0, slot).1 == t - {slot}
  {
  }

  /** Acknowledging one slot never disturbs a waiter under another slot. */
  lemma ResolveIsolated(t: Table, slot: Slot, other: Slot)
    requires other != slot && other in t
    ensures other in Resolve(t, slot).1 && Resolve(t, slot).1[other] == t[other]
  {
  }
}

=== FILE: registry.dfy ===
/** The connection registry: every accepted socket in the order it connected, with the
    client type fixed at connect time and whether the socket is still open. The
    server's `clients` map and the socket server's own client set hold the same
    sockets in the same insertion order, so one sequence stands for both. */
module Registry {
  import opened Base

  datatype ClientType = Web | Esp32

  datatype Session = Session(id: nat, kind: ClientType, open: bool)

  type Sessions = seq<Session>

  /** The `clientType` query-parameter value that marks a dashboard connection. */
  const WebClientParam := "hardware-web"

  /** Connection classification: a dashboard exactly when the query parameter is
      `hardware-web`; anything else, including a missing parameter, is hardware. */
  function Classify(clientType: Option<string>): (k: ClientType)
    ensures k == Web <==> clientType == Some(WebClientParam)
    ensures k == Esp32 <==> clientType.None? || clientType.value != WebClientParam
  {
    if clientType == Some(WebClientParam) then Web else Esp32
  }

  predicate IdsUnique(reg: Sessions) {
    forall i, j :: 0 <= i < j < |reg| ==> reg[i].id != reg[j].id
  }

  predicate Registered(reg: Sessions, id: nat) {
    exists i :: 0 <= i < |reg| && reg[i].id == id
  }

  /** The session with the given id, if registered. */
  function Lookup(reg: Sessions, id: nat): (r: Option<Session>)
    ensures r.Some? <==> Registered(reg, id)
    ensures r.Some? ==> r.value in reg && r.value.id == id
  {
    FirstMatch(reg, (s: Session) => s.id == id)
  }

  /** With distinct ids, looking up a registered session's id finds that session. */
  lemma LookupUnique(reg: Sessions, i: nat)
    requires IdsUnique(reg) && i < |reg|
    ensures Lookup(reg, reg[i].id) == Some(reg[i])
  {
    var l := Lookup(reg, reg[i].id).value;
    var j :| 0 <= j < |reg| && reg[j] == l;
    assert i == j;
  }

  /** Admitting a connection appends exactly one open entry and keeps the others. */
  function Register(reg: Sessions, id: nat, kind: ClientType): (r: Sessions)
    ensures |r| == |reg| + 1
    ensures r[..|reg|] == reg
    ensures r[|reg|] == Session(id, kind, true)
  {
    reg + [Session(id, kind, true)]
  }

  /** Removing a session on `close`: every other session stays, in order. */
  function Unregister(reg: Sessions, id: nat): (r: Sessions)
    ensures |r| <= |reg|
    ensures !Registered(r, id)
    ensures forall i :: 0 <= i < |reg| && reg[i].id != id ==> reg[i] in r
    ensures forall i :: 0 <= i < |r| ==> r[i] in reg
    ensures !Registered(reg, id) ==> r == reg
  {
    if |reg| == 0 then []
    else if reg[0].id == id then Unregister(reg[1..], id)
    else [reg[0]] + Unregister(reg[1..], id)
  }

  /** With distinct ids, closing a registered session shrinks the registry by exactly one
      and keeps the ids distinct. */
  lemma {:induction false} UnregisterRemovesOne(reg: Sessions, id: nat)
    requires IdsUnique(reg)
    ensures Registered(reg, id) ==> |Unregister(reg, id)| == |reg| - 1
    ensures IdsUnique(Unregister(reg, id))
  {
    if |reg| > 0 {
      var tail := reg[1..];
      assert forall k :: 0 <= k < |tail| ==> tail[k] == reg[k + 1];
      assert IdsUnique(tail);
      UnregisterRemovesOne(tail, id);
      var u := Unregister(tail, id);
      if reg[0].id == id {
        assert !Registered(tail, id);
      } else {
        assert Registered(reg, id) ==> Registered(tail, id);
        forall j | 0 <= j < |u|
          ensures u[j].id != reg[0].id
        {
          var k :| 0 <= k < |tail| && tail[k] == u[j];
          assert reg[k + 1] == u[j];
        }
        UniquePrepend(reg[0], u);
      }
    }
  }

  lemma UniquePrepend(s: Session, rest: Sessions)
    requires IdsUnique(rest)
    requires forall j :: 0 <= j < |rest| ==> rest[j].id != s.id
    ensures IdsUnique([s] + rest)
  {
    var r := [s] + rest;
    assert forall j :: 1 <= j < |r| ==> r[j] == rest[j - 1];
  }

  /** The socket leaves the OPEN ready-state (it is closing); it stays registered. */
  function MarkClosing(reg: Sessions, id: nat): (r: Sessions)
    ensures |r| == |reg|
    ensures forall i :: 0 <= i < |reg| ==> r[i].id == reg[i].id && r[i].kind == reg[i].kind
    ensures forall i :: 0 <= i < |reg| ==> r[i].open == (reg[i].open && reg[i].id != id)
  {
    seq(|reg|, i requires 0 <= i < |reg| => if reg[i].id == id then reg[i].(open := false) else reg[i])
  }

  /** Whether a session would receive a message addressed to client type `kind`. */
  predicate Receives(s: Session, kind: ClientType) {
    s.kind == kind && s.open
  }

  /** The first open session of the given type in registration order: the only
      recipient of a first-match send. */
  function FirstOpen(reg: Sessions, kind: ClientType): (r: Option<nat>)
    ensures r.Some? ==> exists i :: 0 <= i < |reg| && reg[i] == Session(r.value, kind, true)
                          && forall j :: 0 <= j < i ==> !Receives(reg[j], kind)
    ensures r.None? <==> forall j :: 0 <= j < |reg| ==> !Receives(reg[j], kind)
  {
    if |reg| == 0 then None
    else if Receives(reg[0], kind) then Some(reg[0].id)
    else
      var r := FirstOpen(reg[1..], kind);
      assert r.Some? ==> exists i :: 1 <= i < |reg| && reg[i] == Session(r.value, kind, true)
                          && forall j :: 0 <= j < i ==> !Receives(reg[j], kind) by {
        if r.Some? {
          var i :| 0 <= i < |reg[1..]| && reg[1..][i] == Session(r.value, kind, true)
                   && forall j :: 0 <= j < i ==> !Receives(reg[1..][j], kind);
          assert reg[i + 1] == reg[1..][i];
          assert forall j :: 1 <= j < i + 1 ==> reg[j] == reg[1..][j - 1];
        }
      }
      r
  }

  /** Whether a session other than `closed` would receive a message for `kind`. */
  predicate ReceivesExcept(s: Session, closed: nat, kind: ClientType) {
    s.id != closed && Receives(s, kind)
  }

  /** After a session closes, nobody of the type is reachable exactly when no other
      open session of the type was registered. */
  lemma FirstOpenAfterUnregisterNone(reg: Sessions, id: nat, kind: ClientType)
    ensures FirstOpen(Unregister(reg, id), kind).None?
        <==> forall j :: 0 <= j < |reg| ==> !ReceivesExcept(reg[j], id, kind)
  {
    var u := Unregister(reg, id);
    if FirstOpen(u, kind).None? {
      forall j | 0 <= j < |reg| && reg[j].id != id
        ensures !Receives(reg[j], kind)
      {
        assert reg[j] in u;
      }
    } else {
      var i :| 0 <= i < |u| && Receives(u[i], kind);
      assert u[i] in reg && u[i].id != id;
    }
  }

  /** After a session closes, a first-match send goes to the earliest open session of
      the type among those that remain: the closed one is skipped and the order of
      the others is kept. */
  lemma {:induction false} FirstOpenAfterUnregister(reg: Sessions, id: nat, kind: ClientType)
    requires FirstOpen(Unregister(reg, id), kind).Some?
    ensures exists i :: 0 <= i < |reg| && reg[i].id == FirstOpen(Unregister(reg, id), kind).value
                && ReceivesExcept(reg[i], id, kind)
                && forall j :: 0 <= j < i ==> !ReceivesExcept(reg[j], id, kind)
  {
    assert |reg| > 0;
    var u := Unregister(reg, id);
    var tail := Unregister(reg[1..], id);
    if ReceivesExcept(reg[0], id, kind) {
      assert u == [reg[0]] + tail;
      assert FirstOpen(u, kind) == Some(reg[0].id);
    } else {
      if reg[0].id == id {
        assert u == tail;
      } else {
        assert u == [reg[0]] + tail;
        assert u[1..] == tail;
        assert !Receives(u[0], kind);
        assert FirstOpen(u, kind) == FirstOpen(tail, kind);
      }
      FirstOpenAfterUnregister(reg[1..], id, kind);
      ShiftWitness(reg, id, kind, FirstOpen(u, kind).value);
    }
  }

  lemma ShiftWitness(reg: Sessions, id: nat, kind: ClientType, x: nat)
    requires |reg| > 0 && !ReceivesExcept(reg[0], id, kind)
    requires exists i :: 0 <= i < |reg[1..]| && reg[1..][i].id == x
                && ReceivesExcept(reg[1..][i], id, kind)
                && forall j :: 0 <= j < i ==> !ReceivesExcept(reg[1..][j], id, kind)
    ensures exists i :: 0 <= i < |reg| && reg[i].id == x
                && ReceivesExcept(reg[i], id, kind)
                && forall j :: 0 <= j < i ==> !ReceivesExcept(reg[j], id, kind)
  {
    var i :| 0 <= i < |reg[1..]| && reg[1..][i].id == x
             && ReceivesExcept(reg[1..][i], id, kind)
             && forall j :: 0 <= j < i ==> !ReceivesExcept(reg[1..][j], id, kind);
    assert reg[i + 1] == reg[1..][i];
    forall j | 0 <= j < i + 1
      ensures !ReceivesExcept(reg[j], id, kind)
    {
      if j > 0 {
        assert reg[j] == reg[1..][j - 1];
      }
    }
  }

  /** Ids of every open session, in registration order: the recipients of a broadcast. */
  function OpenIds(reg: Sessions): (r: seq<nat>)
    ensures forall x :: x in r <==> exists i :: 0 <= i < |reg| && reg[i].open && reg[i].id == x
    ensures IdsUnique(reg) ==> forall a, b :: 0 <= a < b < |r| ==> r[a] != r[b]
  {
    if |reg| == 0 then []
    else
      var rest := OpenIds(reg[1..]);
      assert IdsUnique(reg) ==> IdsUnique(reg[1..]);
      assert IdsUnique(reg) ==> reg[0].id !in rest;
      (if reg[0].open then [reg[0].id] else []) + rest
  }

  /** Whether a hardware controller is connected at all. */
  predicate HasEsp32(reg: Sessions) {
    exists i :: 0 <= i < |reg| && reg[i].kind == Esp32
  }
}

=== FILE: text.dfy ===
/** The string operations the routes and the hub rely on: `String.prototype.trim`,
    case-insensitive comparison as a case-insensitive regular expression performs it,
    `split(' ')`, and the decimal rendering of integers inside wire texts. */
module Text {

  /** White space and line terminators removed by `trim`. */
  predicate IsSpace(c: char) {
    c == ' ' || c == '\t' || c == '\n' || c == '\r' || c == '\U{B}' || c == '\U{C}'
    || c == '\U{A0}' || c == '\U{1680}' || ('\U{2000}' <= c <= '\U{200A}')
    || c == '\U{2028}' || c == '\U{2029}' || c == '\U{202F}' || c == '\U{205F}'
    || c == '\U{3000}' || c == '\U{FEFF}'
  }

  predicate AllSpace(s: string) {
    forall k :: 0 <= k < |s| ==> IsSpace(s[k])
  }

  /** Number of white-space characters at the start of `s`. */
  function LeadingSpaces(s: string): (n: nat)
    ensures n <= |s|
    ensures AllSpace(s[..n])
    ensures n < |s| ==> !IsSpace(s[n])
  {
    if |s| == 0 || !IsSpace(s[0]) then 0
    else
      var n := 1 + LeadingSpaces(s[1..]);
      assert s[..n] == [s[0]] + s[1..][..n - 1];
      n
  }

  /** Number of white-space characters at the end of `s`. */
  function TrailingSpaces(s: string): (n: nat)
    ensures n <= |s|
    ensures AllSpace(s[|s| - n..])
    ensures n < |s| ==> !IsSpace(s[|s| - 1 - n])
  {
    if |s| == 0 || !IsSpace(s[|s| - 1]) then 0
    else
      var init := s[..|s| - 1];
      var n := 1 + TrailingSpaces(init);
      assert s[|s| - n..] == init[|init| - (n - 1)..] + [s[|s| - 1]];
      n
  }

  /** `String.prototype.trim`: the longest slice of `s` that neither starts nor ends
      with white space, surrounded in `s` by white space only. */
  function Trim(s: string): (r: string)
    ensures LeadingSpaces(s) + |r| <= |s|
    ensures r == s[LeadingSpaces(s)..LeadingSpaces(s) + |r|]
    ensures AllSpace(s[..LeadingSpaces(s)]) && AllSpace(s[LeadingSpaces(s) + |r|..])
    ensures |r| > 0 ==> !IsSpace(r[0]) && !IsSpace(r[|r| - 1])
  {
    var a := LeadingSpaces(s);
    var rest := s[a..];
    var b := TrailingSpaces(rest);
    assert s[a + (|rest| - b)..] == rest[|rest| - b..];
    rest[..|rest| - b]
  }

  /** Trimming twice is trimming once. */
  lemma TrimIdempotent(s: string)
    ensures Trim(Trim(s)) == Trim(s)
  {
    var r := Trim(s);
    assert LeadingSpaces(r) == 0;
    assert TrailingSpaces(r) == 0;
  }

  /** Neither end of `s` is white space. */
  predicate Trimmed(s: string) {
    |s| > 0 ==> !IsSpace(s[0]) && !IsSpace(s[|s| - 1])
  }

  lemma TrimOfTrimmed(s: string)
    requires Trimmed(s)
    ensures Trim(s) == s
  {
    assert LeadingSpaces(s) == 0;
    assert s[0..] == s;
    assert TrailingSpaces(s) == 0;
  }

  /** Simple ASCII case folding; other characters fold to themselves. */
  function Lower(c: char): (d: char)
    ensures 'A' <= c <= 'Z' ==> d as int == c as int + 32
    ensures !('A' <= c <= 'Z') ==> d == c
  {
    if 'A' <= c <= 'Z' then (c as int + 32) as char else c
  }

  /** The string mapped through `Lower`, the reference for case-insensitive equality. */
  function LowerAll(s: string): (r: string)
    ensures |r| == |s|
    ensures forall k :: 0 <= k < |s| ==> r[k] == Lower(s[k])
  {
    if |s| == 0 then [] else [Lower(s[0])] + LowerAll(s[1..])
  }

  /** Equality of two strings ignoring (ASCII) letter case, character by character. */
  predicate EqualsIgnoreCase(a: string, b: string) {
    |a| == |b| && forall k :: 0 <= k < |a| ==> Lower(a[k]) == Lower(b[k])
  }

  /** Character-wise case-insensitive equality is equality after lower-casing both. */
  lemma EqualsIgnoreCaseIsLowerEquality(a: string, b: string)
    ensures EqualsIgnoreCase(a, b) <==> LowerAll(a) == LowerAll(b)
  {
    if LowerAll(a) == LowerAll(b) {
      assert |a| == |b|;
      forall k | 0 <= k < |a|
        ensures Lower(a[k]) == Lower(b[k])
      {
        assert LowerAll(a)[k] == LowerAll(b)[k];
      }
    }
  }

  /** Case-insensitive equality is an equivalence relation. */
  lemma EqualsIgnoreCaseIsEquivalence(a: string, b: string, c: string)
    ensures EqualsIgnoreCase(a, a)
    ensures EqualsIgnoreCase(a, b) ==> EqualsIgnoreCase(b, a)
    ensures EqualsIgnoreCase(a, b) && EqualsIgnoreCase(b, c) ==> EqualsIgnoreCase(a, c)
  {
  }

  /** `s.split(sep)`: the maximal separator-free pieces between separators. */
  function Split(s: string, sep: char): (parts: seq<string>)
    ensures |parts| >= 1
    ensures forall i :: 0 <= i < |parts| ==> sep !in parts[i]
  {
    if |s| == 0 then [""]
    else if s[0] == sep then [""] + Split(s[1..], sep)
    else
      var rest := Split(s[1..], sep);
      [[s[0]] + rest[0]] + rest[1..]
  }

  /** `parts.join(sep)`. */
  function Join(parts: seq<string>, sep: char): string
    requires |parts| >= 1
  {
    if |parts| == 1 then parts[0] else parts[0] + [sep] + Join(parts[1..], sep)
  }

  /** Splitting loses nothing: joining the pieces restores the string. */
  lemma {:induction false} JoinSplit(s: string, sep: char)
    ensures Join(Split(s, sep), sep) == s
  {
    if |s| > 0 {
      JoinSplit(s[1..], sep);
      var rest := Split(s[1..], sep);
      if s[0] != sep {
        var parts := Split(s, sep);
        assert parts[1..] == rest[1..];
        if |rest| == 1 {
          assert Join(parts, sep) == [s[0]] + rest[0];
        } else {
          assert Join(parts, sep) == [s[0]] + rest[0] + [sep] + Join(rest[1..], sep);
        }
      }
    }
  }

  /** Splitting a separator-free head, a separator and any tail yields the head
      followed by the pieces of the tail. */
  lemma {:induction false} SplitAfterHead(head: string, sep: char, tail: string)
    requires sep !in head
    ensures Split(head + [sep] + tail, sep) == [head] + Split(tail, sep)
  {
    if |head| == 0 {
      assert head + [sep] + tail == [sep] + tail;
      assert ([sep] + tail)[1..] == tail;
    } else {
      SplitAfterHead(head[1..], sep, tail);
      assert (head + [sep] + tail)[1..] == head[1..] + [sep] + tail;
      assert [head[0]] + head[1..] == head;
    }
  }

  /** A separator-free string is a single piece. */
  lemma {:induction false} SplitWithoutSeparator(s: string, sep: char)
    requires sep !in s
    ensures Split(s, sep) == [s]
  {
    if |s| > 0 {
      SplitWithoutSeparator(s[1..], sep);
      assert [s[0]] + s[1..] == s;
    }
  }

  function DigitChar(d: nat): (c: char)
    requires d < 10
  {
    "0123456789"[d]
  }

  predicate IsDigit(c: char) {
    '0' <= c <= '9'
  }

  function DigitValue(c: char): (d: nat)
    requires IsDigit(c)
    ensures d < 10 && DigitChar(d) == c
  {
    c as int - '0' as int
  }

  /** Decimal digits of `n`, most significant first, without leading zeros. */
  function NatToString(n: nat): (s: string)
    ensures |s| >= 1
    ensures forall k :: 0 <= k < |s| ==> IsDigit(s[k])
    ensures s[0] == '0' ==> n == 0
  {
    if n < 10 then [DigitChar(n)] else NatToString(n / 10) + [DigitChar(n % 10)]
  }

  /** JavaScript's rendering of an integer in a template literal. */
  function IntToString(n: int): (s: string)
    ensures |s| >= 1
    ensures n < 0 <==> s[0] == '-'
  {
    if n < 0 then "-" + NatToString(-n) else NatToString(n)
  }

  /** Reads back a string of decimal digits. */
  function ParseNat(s: string): nat
    requires forall k :: 0 <= k < |s| ==> IsDigit(s[k])
  {
    if |s| == 0 then 0 else ParseNat(s[..|s| - 1]) * 10 + DigitValue(s[|s| - 1])
  }

  /** Reads back an optionally negative decimal integer. */
  function ParseInt(s: string): int
    requires |s| >= 1
    requires forall k :: 1 <= k < |s| ==> IsDigit(s[k])
    requires s[0] == '-' || IsDigit(s[0])
  {
    if s[0] == '-' then -(ParseNat(s[1..]) as int) else ParseNat(s)
  }

  lemma {:induction false} NatToStringRoundTrip(n: nat)
    ensures ParseNat(NatToString(n)) == n
  {
    if n >= 10 {
      NatToStringRoundTrip(n / 10);
      var s := NatToString(n);
      assert s[..|s| - 1] == NatToString(n / 10);
      assert DigitValue(s[|s| - 1]) == n % 10;
    } else {
      assert DigitValue(NatToString(n)[0]) == n;
    }
  }

  /** The receiving end of a wire text recovers the integer that was rendered. */
  lemma IntToStringRoundTrip(n: int)
    ensures ParseInt(IntToString(n)) == n
  {
    if n < 0 {
      NegativeRoundTrip(n);
    } else {
      var d := NatToString(n);
      assert IsDigit(d[0]);
      NatToStringRoundTrip(n);
    }
  }

  lemma NegativeRoundTrip(n: int)
    requires n < 0
    ensures ParseInt("-" + NatToString(-n)) == n
  {
    var d := NatToString(-n);
    var s := "-" + d;
    assert s[1..] == d;
    NatToStringRoundTrip(-n);
  }
}

=== FILE: user_routes.dfy ===
/** The decision procedures of the user routes: registration (duplicate check, slot
    assignment), login, change-password and delete. Password hashing and
    verification are an abstract `verify(stored, given)` predicate. */
module UserRoutes {
  import opened Base
  import opened Models
  import Text

  /** `z.string()` on a body field: the field's text, or nothing when it is absent or
      not a string. */
  function AsString(v: Option<Json>): (r: Option<string>)
    ensures r.Some? <==> v.Some? && v.value.JStr?
    ensures r.Some? ==> v.value == JStr(r.value)
  {
    match v
    case Some(JStr(s)) => Some(s)
    case _ => None
  }

  const UserExists := HttpError(409, "User already exists")
  const UserNotFound := HttpError(404, "User not found")
  const BadCredentials := HttpError(401, "Invalid credentials")

  /** The email test of registration and login: the stored address equals the trimmed
      input, ignoring letter case. */
  predicate EmailMatches(stored: string, input: string) {
    Text.EqualsIgnoreCase(stored, Text.Trim(input))
  }

  /** The email test is equality of the lower-cased stored address and the lower-cased
      trimmed input. */
  lemma EmailMatchesIsLowerEquality(stored: string, input: string)
    ensures EmailMatches(stored, input) <==> Text.LowerAll(stored) == Text.LowerAll(Text.Trim(input))
  {
    Text.EqualsIgnoreCaseIsLowerEquality(stored, Text.Trim(input));
  }

  /** Surrounding white space in the input never matters to the email test. */
  lemma EmailMatchesIgnoresPadding(stored: string, input: string, pad1: string, pad2: string)
    requires Text.AllSpace(pad1) && Text.AllSpace(pad2)
    requires Text.Trim(input) == input
    ensures EmailMatches(stored, pad1 + input + pad2) <==> EmailMatches(stored, input)
  {
    TrimPadded(pad1, input, pad2);
  }

  lemma TrimPadded(pad1: string, s: string, pad2: string)
    requires Text.AllSpace(pad1) && Text.AllSpace(pad2)
    requires Text.Trim(s) == s
    ensures Text.Trim(pad1 + s + pad2) == s
  {
    var t := pad1 + s + pad2;
    assert t == pad1 + (s + pad2);
    LeadingPad(pad1, s + pad2);
    if |s| == 0 {
      assert s + pad2 == pad2;
      LeadingPad(pad2, "");
      assert pad2 + "" == pad2;
      assert Text.LeadingSpaces(t) == |t|;
    } else {
      assert !Text.IsSpace(s[0]) && !Text.IsSpace(s[|s| - 1]);
      assert (s + pad2)[0] == s[0];
      assert Text.LeadingSpaces(s + pad2) == 0;
      var a := Text.LeadingSpaces(t);
      assert a == |pad1|;
      var rest := t[a..];
      assert rest == s + pad2;
      TrailingPad(s, pad2);
      assert Text.TrailingSpaces(s) == 0;
      assert Text.TrailingSpaces(rest) == |pad2|;
      TrimUnfold(t);
      assert rest[..|rest| - |pad2|] == s;
    }
  }

  lemma TrimUnfold(t: string)
    ensures var rest := t[Text.LeadingSpaces(t)..];
            Text.Trim(t) == rest[..|rest| - Text.TrailingSpaces(rest)]
  {
  }

  lemma {:induction false} LeadingPad(pad: string, x: string)
    requires Text.AllSpace(pad)
    ensures Text.LeadingSpaces(pad + x) == |pad| + Text.LeadingSpaces(x)
  {
    if |pad| > 0 {
      assert (pad + x)[1..] == pad[1..] + x;
      LeadingPad(pad[1..], x);
    } else {
      assert pad + x == x;
    }
  }

  lemma {:induction false} TrailingPad(x: string, pad: string)
    requires Text.AllSpace(pad)
    ensures Text.TrailingSpaces(x + pad) == Text.TrailingSpaces(x) + |pad|
  {
    if |pad| > 0 {
      var y := x + pad;
      assert y[..|y| - 1] == x + pad[..|pad| - 1];
      assert y[|y| - 1] == pad[|pad| - 1];
      TrailingPad(x, pad[..|pad| - 1]);
    } else {
      assert x + pad == x;
    }
  }

  /** The `biometricId` slot the handler assigns: one more than the number of users
      already stored. */
  function NextSlotAsWritten(users: seq<User>): int {
    |users| + 1
  }

  /** The largest slot in use, 0 when none is. */
  function MaxSlot(users: seq<User>): (m: int)
    ensures m >= 0
    ensures forall j :: 0 <= j < |users| && users[j].biometricId.Some? ==> users[j].biometricId.value <= m
  {
    if |users| == 0 then 0
    else
      var rest := MaxSlot(users[1..]);
      assert forall j :: 1 <= j < |users| ==> users[j] == users[1..][j - 1];
      match users[0].biometricId
      case Some(b) => if b > rest then b else rest
      case None => rest
  }

  /** A slot no stored user holds: the handler's count-plus-one whenever that slot is
      free, and otherwise one more than the largest slot in use. */
  function NextSlot(users: seq<User>): (n: int)
    ensures n >= 1
    ensures forall j :: 0 <= j < |users| ==> users[j].biometricId != Some(n)
    ensures (forall j :: 0 <= j < |users| ==> users[j].biometricId != Some(NextSlotAsWritten(users))) ==>
              n == NextSlotAsWritten(users)
  {
    if forall j :: 0 <= j < |users| ==> users[j].biometricId != Some(NextSlotAsWritten(users))
    then NextSlotAsWritten(users)
    else MaxSlot(users) + 1
  }

  predicate SlotsUnique(users: seq<User>) {
    forall i, j :: 0 <= i < j < |users| && users[i].biometricId.Some? ==> users[i].biometricId != users[j].biometricId
  }

  datatype RegisterBody = RegisterBody(email: Option<Json>, pincode: Option<Json>, fullName: Option<Json>)

  /** The registration chain with the slot to give the new user: body validation (400),
      duplicate email (409), a clashing generated id (500), then the new record is
      appended. The stored email is the input as given, not trimmed. */
  function RegisterWith(users: seq<User>, deviceId: string, body: RegisterBody, newId: UserId, slot: int)
    : (r: Result<(seq<User>, User), HttpError>)
    ensures (AsString(body.email).None? || AsString(body.pincode).None? || AsString(body.fullName).None?)
            <==> r == Err(BodyInvalid)
    ensures r == Err(UserExists) <==>
              AsString(body.email).Some? && AsString(body.pincode).Some? && AsString(body.fullName).Some?
              && exists j :: 0 <= j < |users| && EmailMatches(users[j].email, AsString(body.email).value)
    ensures r.Ok? ==> forall j :: 0 <= j < |users| ==> !EmailMatches(users[j].email, AsString(body.email).value)
    ensures r.Ok? ==> r.value.0 == users + [r.value.1]
    ensures r.Ok? ==> r.value.1 == User(newId, AsString(body.email).value, AsString(body.fullName).value,
                                        AsString(body.pincode).value, deviceId, DefaultRole, None, Some(slot), false)
    ensures r.Ok? || r == Err(BodyInvalid) || r == Err(UserExists) || r == Err(ServerError)
    ensures r == Err(ServerError) ==> exists j :: 0 <= j < |users| && users[j].id == newId
    ensures r.Ok? && UserIdsUnique(users) ==> UserIdsUnique(r.value.0)
  {
    var email := AsString(body.email);
    var pin := AsString(body.pincode);
    var name := AsString(body.fullName);
    if email.None? || pin.None? || name.None? then Err(BodyInvalid)
    else if exists j :: 0 <= j < |users| && EmailMatches(users[j].email, email.value) then Err(UserExists)
    else if FindUserIndex(users, newId).Some? then Err(ServerError)
    else
      var u := User(newId, email.value, name.value, pin.value, deviceId, DefaultRole, None, Some(slot), false);
      Ok((users + [u], u))
  }

  /** Registration as the handler writes it: the slot is the user count plus one. */
  function RegisterAsWritten(users: seq<User>, deviceId: string, body: RegisterBody, newId: UserId)
    : (r: Result<(seq<User>, User), HttpError>)
    ensures r.Ok? ==> r.value.1.biometricId == Some(|users| + 1)
    ensures r.Ok? ==> r.value.0 == users + [r.value.1]
  {
    RegisterWith(users, deviceId, body, newId, NextSlotAsWritten(users))
  }

  /** Registration with the slot the handler evidently intends: one no stored user
      holds, so every user keeps a slot of its own. */
  function Register(users: seq<User>, deviceId: string, body: RegisterBody, newId: UserId)
    : (r: Result<(seq<User>, User), HttpError>)
    ensures r.Ok? ==> r.value.0 == users + [r.value.1]
    ensures r.Ok? ==> r.value.1.biometricId.Some? && r.value.1.biometricId.value >= 1
    ensures r.Ok? ==> forall j :: 0 <= j < |users| ==> users[j].biometricId != r.value.1.biometricId
    ensures r.Ok? && SlotsUnique(users) ==> SlotsUnique(r.value.0)
  {
    RegisterWith(users, deviceId, body, newId, NextSlot(users))
  }

  /** The handler's slot assignment hands out a slot that is still in use once a user has
      been deleted: users holding slots 1 and 2, the first deleted, the next
      registration gets slot 2 again. */
  lemma AsWrittenSlotCollides(a: User, b: User, deviceId: string, body: RegisterBody, newId: UserId)
    requires a.biometricId == Some(1) && b.biometricId == Some(2) && a.id != b.id
    requires RegisterAsWritten(DeleteUser([a, b], a.id).value, deviceId, body, newId).Ok?
    ensures DeleteUser([a, b], a.id) == Ok([b])
    ensures RegisterAsWritten([b], deviceId, body, newId).value.1.biometricId == b.biometricId
  {
    assert FindUserIndex([a, b], a.id) == Some(0);
    assert [a, b][..0] + [a, b][1..] == [b];
  }

  /** The corrected registration departs from the handler only where the handler's
      slot is already taken. */
  lemma RegisterAgreesWhileCountSlotFree(users: seq<User>, deviceId: string, body: RegisterBody, newId: UserId)
    requires forall j :: 0 <= j < |users| ==> users[j].biometricId != Some(|users| + 1)
    ensures Register(users, deviceId, body, newId) == RegisterAsWritten(users, deviceId, body, newId)
  {
    assert NextSlot(users) == NextSlotAsWritten(users);
  }

  /** The corrected assignment never hands out a slot still in use, whatever was deleted. */
  lemma SlotNeverReused(users: seq<User>, gone: UserId, deviceId: string, body: RegisterBody, newId: UserId)
    requires SlotsUnique(users)
    requires DeleteUser(users, gone).Ok?
    requires Register(DeleteUser(users, gone).value, deviceId, body, newId).Ok?
    ensures SlotsUnique(Register(DeleteUser(users, gone).value, deviceId, body, newId).value.0)
  {
    var i := FindUserIndex(users, gone).value;
    RemovalKeepsSlotsUnique(users, i);
  }

  lemma RemovalKeepsSlotsUnique(users: seq<User>, i: nat)
    requires SlotsUnique(users) && i < |users|
    ensures SlotsUnique(users[..i] + users[i + 1..])
  {
    var rest := users[..i] + users[i + 1..];
    forall a, b | 0 <= a < b < |rest| && rest[a].biometricId.Some?
      ensures rest[a].biometricId != rest[b].biometricId
    {
      var ia := if a < i then a else a + 1;
      var ib := if b < i then b else b + 1;
      assert rest[a] == users[ia] && rest[b] == users[ib];
    }
  }

  datatype LoginBody = LoginBody(email: Option<Json>, deviceId: Option<Json>, password: Option<Json>)

  /** A user login matches: an admin whose email and device id equal the trimmed inputs,
      ignoring case. */
  predicate LoginCandidate(u: User, email: string, deviceId: string) {
    u.role == Admin && EmailMatches(u.email, email) && Text.EqualsIgnoreCase(u.deviceId, Text.Trim(deviceId))
  }

  /** `i` is the first stored user the login query `findOne` would return. */
  predicate FirstCandidate(users: seq<User>, i: int, email: string, deviceId: string) {
    && 0 <= i < |users|
    && LoginCandidate(users[i], email, deviceId)
    && forall j :: 0 <= j < i ==> !LoginCandidate(users[j], email, deviceId)
  }

  /** Login: body validation (400), the first matching admin or 404, then the password
      check of that admin (401). */
  function Login(users: seq<User>, body: LoginBody, verify: (Option<string>, string) -> bool)
    : (r: Result<User, HttpError>)
    ensures (AsString(body.email).None? || AsString(body.deviceId).None? || AsString(body.password).None?)
            <==> r == Err(BodyInvalid)
    ensures r == Err(UserNotFound) <==>
              r != Err(BodyInvalid)
              && forall j :: 0 <= j < |users| ==> !LoginCandidate(users[j], AsString(body.email).value, AsString(body.deviceId).value)
    ensures r.Ok? ==> (r.value in users
                  && LoginCandidate(r.value, AsString(body.email).value, AsString(body.deviceId).value)
                  && verify(r.value.password, AsString(body.password).value))
    ensures r != Err(BodyInvalid) ==>
              forall i :: FirstCandidate(users, i, AsString(body.email).value, AsString(body.deviceId).value) ==>
                && (r.Ok? <==> verify(users[i].password, AsString(body.password).value))
                && (r.Ok? ==> r.value == users[i])
                && (!r.Ok? ==> r == Err(BadCredentials))
    ensures r.Ok? || r == Err(BodyInvalid) || r == Err(UserNotFound) || r == Err(BadCredentials)
  {
    var email := AsString(body.email);
    var device := AsString(body.deviceId);
    var password := AsString(body.password);
    if email.None? || device.None? || password.None? then Err(BodyInvalid)
    else
      var p := (u: User) => LoginCandidate(u, email.value, device.value);
      match FindFirst(users, p)
      case None => Err(UserNotFound)
      case Some(i) =>
        assert forall k :: FirstCandidate(users, k, email.value, device.value) ==> k == i;
        if !verify(users[i].password, password.value) then Err(BadCredentials) else Ok(users[i])
  }

  const SamePassword := HttpError(400, "New password cannot be the same as the current password")
  const ShortPassword := HttpError(400, "New password must be at least 6 characters long")
  const MinPasswordLength := 6

  /** `i` is the first admin in storage order, the one `findOne({ role: 'admin' })` returns. */
  predicate FirstAdmin(users: seq<User>, i: int) {
    && 0 <= i < |users|
    && users[i].role == Admin
    && forall j :: 0 <= j < i ==> users[j].role != Admin
  }

  /** Change-password, checks in this order: no admin (404), wrong current password (401),
      unchanged password (400), too short (400); only then is the first admin's
      password replaced, and nothing else changes. */
  function ChangePassword(users: seq<User>, current: string, replacement: string, verify: (Option<string>, string) -> bool)
    : (r: Result<seq<User>, HttpError>)
    ensures r == Err(UserNotFound) <==> forall j :: 0 <= j < |users| ==> users[j].role != Admin
    ensures r.Ok? || r == Err(UserNotFound) || r == Err(BadCredentials) || r == Err(SamePassword) || r == Err(ShortPassword)
    ensures forall i :: FirstAdmin(users, i) ==>
              && (!verify(users[i].password, current) <==> r == Err(BadCredentials))
              && (r == Err(SamePassword) <==> verify(users[i].password, current) && current == replacement)
              && (r == Err(ShortPassword) <==>
                    verify(users[i].password, current) && current != replacement && |replacement| < MinPasswordLength)
              && (r.Ok? <==>
                    verify(users[i].password, current) && current != replacement && |replacement| >= MinPasswordLength)
              && (r.Ok? ==> r.value == users[i := users[i].(password := Some(replacement))])
  {
    var p := (u: User) => u.role == Admin;
    match FindFirst(users, p)
    case None => Err(UserNotFound)
    case Some(i) =>
      assert forall k :: FirstAdmin(users, k) ==> k == i;
      if !verify(users[i].password, current) then Err(BadCredentials)
      else if current == replacement then Err(SamePassword)
      else if |replacement| < MinPasswordLength then Err(ShortPassword)
      else Ok(users[i := users[i].(password := Some(replacement))])
  }

  /** Changing the password touches no id and no slot. */
  lemma ChangePasswordKeepsUsersValid(users: seq<User>, current: string, replacement: string,
                                      verify: (Option<string>, string) -> bool)
    requires UserIdsUnique(users) && SlotsUnique(users)
    requires ChangePassword(users, current, replacement, verify).Ok?
    ensures var users' := ChangePassword(users, current, replacement, verify).value;
            && |users'| == |users|
            && (forall j :: 0 <= j < |users| ==> users'[j].id == users[j].id && users'[j].biometricId == users[j].biometricId)
            && UserIdsUnique(users') && SlotsUnique(users')
  {
    var i := FindFirst(users, (u: User) => u.role == Admin).value;
    assert FirstAdmin(users, i);
    var users' := ChangePassword(users, current, replacement, verify).value;
    assert forall j :: 0 <= j < |users| ==> users'[j].id == users[j].id && users'[j].biometricId == users[j].biometricId;
  }

  /** After a successful change, the first admin logs in with the new password (when the
      stored hash of it verifies), using the stored email and device id. */
  lemma LoginAfterChangePassword(users: seq<User>, current: string, replacement: string,
                                 verify: (Option<string>, string) -> bool, i: nat)
    requires FirstAdmin(users, i)
    requires ChangePassword(users, current, replacement, verify).Ok?
    requires Text.Trimmed(users[i].email) && Text.Trimmed(users[i].deviceId)
    requires verify(Some(replacement), replacement)
    ensures var users' := ChangePassword(users, current, replacement, verify).value;
            Login(users', LoginBody(Some(JStr(users[i].email)), Some(JStr(users[i].deviceId)), Some(JStr(replacement))), verify)
              == Ok(users'[i])
  {
    var users' := ChangePassword(users, current, replacement, verify).value;
    ChangedAdminOnly(users, current, replacement, verify, i);
    assert users'[i] == users[i].(password := Some(replacement));
    assert forall j :: 0 <= j < i ==> users'[j] == users[j];
    FirstAdminLogsIn(users', i, replacement, verify);
  }

  /** The first admin, with trimmed email and device id, logs in with a password its
      stored hash accepts. */
  lemma FirstAdminLogsIn(users: seq<User>, i: nat, password: string, verify: (Option<string>, string) -> bool)
    requires FirstAdmin(users, i)
    requires Text.Trimmed(users[i].email) && Text.Trimmed(users[i].deviceId)
    requires verify(users[i].password, password)
    ensures Login(users, LoginBody(Some(JStr(users[i].email)), Some(JStr(users[i].deviceId)), Some(JStr(password))), verify)
              == Ok(users[i])
  {
    SelfCandidate(users[i]);
    assert FirstCandidate(users, i, users[i].email, users[i].deviceId);
    LoginOfFirstCandidate(users, LoginBody(Some(JStr(users[i].email)), Some(JStr(users[i].deviceId)), Some(JStr(password))), verify, i);
  }

  /** An admin with trimmed email and device id is a login match for them. */
  lemma SelfCandidate(u: User)
    requires u.role == Admin && Text.Trimmed(u.email) && Text.Trimmed(u.deviceId)
    ensures LoginCandidate(u, u.email, u.deviceId)
  {
    Text.TrimOfTrimmed(u.email);
    Text.TrimOfTrimmed(u.deviceId);
    Text.EqualsIgnoreCaseIsEquivalence(u.email, u.email, u.email);
    Text.EqualsIgnoreCaseIsEquivalence(u.deviceId, u.deviceId, u.deviceId);
  }

  lemma ChangedAdminOnly(users: seq<User>, current: string, replacement: string,
                         verify: (Option<string>, string) -> bool, i: nat)
    requires FirstAdmin(users, i)
    requires ChangePassword(users, current, replacement, verify).Ok?
    ensures ChangePassword(users, current, replacement, verify).value == users[i := users[i].(password := Some(replacement))]
  {
  }

  lemma LoginOfFirstCandidate(users: seq<User>, body: LoginBody, verify: (Option<string>, string) -> bool, i: nat)
    requires body.email.Some? && body.email.value.JStr? && body.deviceId.Some? && body.deviceId.value.JStr?
    requires body.password.Some? && body.password.value.JStr?
    requires FirstCandidate(users, i, body.email.value.s, body.deviceId.value.s)
    requires verify(users[i].password, body.password.value.s)
    ensures Login(users, body, verify) == Ok(users[i])
  {
  }

  /** `findByIdAndDelete`: removes the user with the id, keeping the others in order;
      404 when there is none. */
  function DeleteUser(users: seq<User>, id: UserId): (r: Result<seq<User>, HttpError>)
    ensures r.Err? <==> forall j :: 0 <= j < |users| ==> users[j].id != id
    ensures r.Err? ==> r.error == UserNotFound
    ensures r.Ok? ==> exists i :: 0 <= i < |users| && users[i].id == id && r.value == users[..i] + users[i + 1..]
    ensures r.Ok? && UserIdsUnique(users) ==> forall j :: 0 <= j < |r.value| ==> r.value[j].id != id
  {
    match FindUserIndex(users, id)
    case None => Err(UserNotFound)
    case Some(i) =>
      var rest := users[..i] + users[i + 1..];
      assert forall j :: 0 <= j < |rest| ==> rest[j] == users[if j < i then j else j + 1];
      Ok(rest)
  }
}
